=== FILE: README.md ===
# Nabha HealthConnect offline layer, in Dafny

This project models the offline layer of the Nabha HealthConnect progressive web app:
the service worker in `enhanced-sw.js` and the three utilities of `api-config.js`. The
model covers:

- the fetch listener's routing of each request to one of four caching strategies
  (network first for `/api/` and dynamic pages, cache first for images, cache first with
  a background refresh for static files), each against its own named cache partition;
- the mutation path, which queues appointment bookings and emergency alerts that cannot
  reach the server in the `syncQueue` object store and answers with an optimistic 202;
- the replay engine: the background-sync listener, the three drains, and the periodic
  `data-sync`, which drains all three queues and refreshes the API partition;
- activation: eviction of cache partitions from other versions, the daily periodic-sync
  registration and the `SW_ACTIVATED` broadcast;
- the push listener's notification composition, and the notification-click listener's
  choice of target and window;
- `getBaseURL`, `buildURL` and `validateData`.

The browser services appear as small classes whose fields are exactly what the code
observes:

- `CacheStorage`: the named partitions.
- `SyncQueue`: the object store's rows and its key generator.
- `Network`: a log of every request sent and the result the environment chose for it.
- `Clients`: the messages broadcast to open sessions.
- `Registration`: the armed sync tags.

Each listener and handler is a method over these objects. Its contract states the new
state and the response. Each handler step's contract is a named predicate over the state
before and after: `ApiStrategy`, `ImageStrategy`, `StaticStrategy` and `DynamicStrategy`
for the caching routes; `BookingStep`, `AlertStep` and `NonGetStep` for mutations;
`Drained`, `ApiRefreshed` and `DataSynced` for sync; `ChoiceFor` for the click
listener. The listener that dispatches to a handler states that handler's predicate for
its route. The properties that relate several calls are lemmas about the specification
functions the methods are proved against (`Remaining`, `Refreshed`, `Errors`, `Merged`,
`AfterRemoval`).

One file per concern:

| file | contents |
|---|---|
| `text.dfy` | the string helpers |
| `http.dfy` | requests, responses, fetch results |
| `platform.dfy` | network, clients, registration |
| `routing.dfy` | request routing |
| `cache_storage.dfy` | partitions and eviction |
| `strategies.dfy` | the four strategies and the API refresh |
| `outbox.dfy` | the sync queue and its three functions |
| `mutations.dfy` | the non-GET path |
| `replay.dfy` | sync listeners, drains, periodic sync |
| `lifecycle.dfy` | activation |
| `fetch_event.dfy` | the fetch listener |
| `notifications.dfy` | push and click |
| `api_config.dfy` | the api-config.js utilities |
| `replay_by_id.dfy`, `shell_fallback.dfy` and `click_focus.dfy` | the three findings below |

Behaviour of the code that the model keeps as written:

- **A same-origin GET outside `/api/`, with no image or static extension, while the
  network is down.** Only paths under `/api/` take the API strategy, so such a request
  takes the dynamic strategy and never gets the 503 offline JSON. It gets its cached
  entry when the dynamic partition holds its URL. With no cached entry, it gets the
  offline page if it is a navigation and a rejection otherwise.
- **How a replayed entry is deleted.** A delivered entry is deleted by its tag and
  `data.timestamp`, not by its id: the first row with the same tag and timestamp goes
  (see Findings).
- **When a replay counts as a success.** A symptom analysis is removed after any
  response at all, ok or not. An emergency alert with a non-ok response stays queued,
  silently.
- **Dynamic-strategy fallback.** An offline navigation that misses the dynamic partition
  looks the shell up in that same partition. The shell's own URL is never stored there,
  unless a navigation to the shell with a fragment was cached online, so such a
  navigation gets the offline page (see Findings). Only the API strategy marks a cached
  answer as served from cache.

## Model

| member | source | states |
|---|---|---|
| Routing.Classify | enhanced-sw.js:131-155 | Each of the six routes is taken exactly when its condition holds, in the listener's order. Non-GET requests take the mutation path. A cross-origin request off the allow-list is left to the browser. Then come, in order: `/api/` paths, image requests, static resources, everything else. |
| Routing.ApiPrefixWins | enhanced-sw.js:146-151 | An intercepted request whose path starts with `/api/` takes the API strategy even when its URL looks like an image or a static file. |
| Routing.ImageBeforeStatic | enhanced-sw.js:148-151 | A request that is both an image and a static resource is served by the image strategy. |
| Routing.ExtensionIgnoresCase | enhanced-sw.js:573-581 | The extension tests are case-insensitive: a URL matches exactly when its lower-cased form does. |
| CacheStore.WithoutStale | enhanced-sw.js:105-115 | After eviction, the partition names are exactly the old names that are among the four current ones, and each kept partition's contents are unchanged. |
| CacheStore.DeleteStaleCaches | enhanced-sw.js:105-115 | Deleting every partition whose name is not current, one at a time, leaves exactly `WithoutStale` of the old storage. |
| Strategies.HandleApiRequest | enhanced-sw.js:158-187 | `ApiStrategy`: one network call for the request. An ok response is stored under the URL and returned. A non-ok response is returned and nothing is stored. On a transport failure, the cached entry is returned marked as served from cache; without one, the 503 offline JSON. Only the API partition can change. |
| Strategies.HandleImageRequest | enhanced-sw.js:190-214 | `ImageStrategy`: a cache hit is returned with no network call and no cache change. A miss makes one network call and stores an ok response. A transport failure yields the placeholder SVG. |
| Strategies.HandleStaticResource | enhanced-sw.js:217-254 | `StaticStrategy`: a hit is returned at once, with no network call and a background refresh pending. On a miss, one network call and an ok response is stored. If that fails, a navigation gets the cached shell or the offline page, and anything else is rejected. |
| Strategies.RevalidateStatic | enhanced-sw.js:224-232 | The background refresh makes one network call. Only an ok response changes the static partition, and only at the request's URL. A failure changes nothing. |
| Strategies.HandleDynamicRequest | enhanced-sw.js:257-284 | `DynamicStrategy`, network first: an ok response is stored in the dynamic partition. On a transport failure the response is, in order: the cached entry; for a navigation, the shell as found in the dynamic partition or else the offline page; otherwise a rejection. |
| Strategies.NetworkFirstWithShell | enhanced-sw.js:257-284 | The dynamic strategy, with the partition the navigation fallback reads the shell from as a parameter. The other branches are the same as in `HandleDynamicRequest`. |
| FetchEvent.RefreshKeysServedByApiRoute | enhanced-sw.js:31-37 | The refresh writes exactly the keys the API route reads offline: a same-origin GET of any refreshed endpoint, at its resolved URL, is routed to the API strategy, whose partition is the one the refresh updates. |
| Strategies.EndpointKeysDistinct | enhanced-sw.js:31-37 | The five resolved endpoint keys are pairwise distinct. |
| Strategies.RefreshedAt | enhanced-sw.js:763-773 | After a refresh over distinct keys, a key whose fetch returned ok holds that response. A key whose fetch failed keeps its old entry, or stays absent. A key not fetched is untouched. |
| Strategies.UpdateApiCache | enhanced-sw.js:760-774 | `ApiRefreshed`: exactly one GET per endpoint, in order. The API partition becomes `Refreshed` of its old contents by those results. No other partition changes. |
| Strategies.RefreshAll | enhanced-sw.js:763-773 | The loop of the refresh. It sends one GET per key, in order, and stores each ok response under its key, so the API partition ends as `Refreshed`. |
| Strategies.RefreshEndpoint | enhanced-sw.js:764-772 | One GET for the key. An ok response replaces that key's entry, and nothing else changes. |
| Outbox.WithoutId | enhanced-sw.js:709-711 | Deleting by id keeps only rows that were present, and keeps ids ascending. |
| Outbox.WithoutIdAt | enhanced-sw.js:705-711 | In a queue with ascending ids, deleting the id of the row at `i` removes exactly that row and keeps the rest in order. |
| Outbox.SyncQueue.Add | enhanced-sw.js:644-656 | `store.add` appends a row whose id is the key generator's next value, and advances the generator. Ids stay ascending and below the generator. |
| Outbox.StoreForBackgroundSync | enhanced-sw.js:640-663 | Storing appends exactly one row with the given tag, data and time, under a fresh id. Every earlier row is kept. |
| Outbox.GetStoredDataAppend | enhanced-sw.js:666-690 | Listing follows store order: listing `a + b` is listing `a` followed by listing `b`. |
| Outbox.GetStoredDataMembers | enhanced-sw.js:679-681 | An item is listed for a tag exactly when some stored row with that tag carries it. |
| Outbox.StoreThenList | enhanced-sw.js:640-690 | After storing a row, the listing of its tag gains exactly that data at the end. Every other tag's listing is unchanged. |
| Outbox.FindMatch | enhanced-sw.js:705-707 | `find` returns the first row with the tag and `data.timestamp`, or none when no row matches. |
| Outbox.RemovalDeletesFirstMatchOnly | enhanced-sw.js:692-717 | Removal deletes at most one row, the first match, and keeps the others in order. Without a match it changes nothing. Other tags' listings never change. |
| Outbox.RemoveStoredData | enhanced-sw.js:692-717 | The queue after removal is `AfterRemoval` of the old rows. Ids stay ascending. |
| Mutations.OfflineId | enhanced-sw.js:335 | The optimistic id is `offline-` followed by the decimal rendering of the time, which is non-empty and all digits. |
| Mutations.HandleAppointmentBooking | enhanced-sw.js:307-343 | One network call. An ok response is returned and nothing is queued. On a non-ok response or a transport failure, the booking (url, method, headers, body, time) is appended to the queue. If the `appointment-booking` sync registration succeeds, it is armed and the 202 pending-sync answer is returned. If the registration fails, which is certain without background sync, the tags are unchanged and the handler rejects. A body that is not JSON rejects before queuing. All of this is the predicate `BookingStep`. |
| Mutations.HandleEmergencyAlert | enhanced-sw.js:346-373 | Any network response, ok or not, is returned and nothing is queued. Only a transport failure queues the alert (priority high, no headers). Then, if the registration succeeds, `emergency-alert` is armed and the 202 queued answer is returned; otherwise the handler rejects. This is the predicate `AlertStep`. |
| Mutations.KindOf | enhanced-sw.js:290-300 | POSTs to `/api/appointments` are bookings. Other POSTs to `/api/emergency` are alerts. Everything else passes through. |
| Mutations.HandleNonGetRequest | enhanced-sw.js:287-304 | `NonGetStep`: a booking satisfies `BookingStep` and an alert `AlertStep`. Any other request is fetched as it is, and the page sees the response or the failure, with nothing queued. Bookings and alerts queue at most one row, of their own tag, and keep every earlier row. |
| Replay.ReplayOne | enhanced-sw.js:399-422 | One replay sends the item's request. On delivery it removes the first row with the tag and timestamp and broadcasts the answer. A failure changes neither queue nor clients. |
| Replay.ReplayAll | enhanced-sw.js:399-423 | Replaying a snapshot sends one request per item, in order. Rows and broadcasts are then as `Remaining` and `Notices` say for those results. |
| Replay.Drain | enhanced-sw.js:395-427 | A drain lists its tag once. The network log grows by one replay per listed item, in order. The queue becomes `Remaining` of the old rows under those results, and the broadcasts become `Notices` of those results. |
| Replay.SyncAppointments | enhanced-sw.js:395-427 | The booking drain: an ok reply removes the row and is broadcast; a failure keeps it and the loop goes on. |
| Replay.SyncEmergencyAlerts | enhanced-sw.js:430-458 | The alert drain: only an ok reply removes the row and is broadcast. |
| Replay.SyncSymptomAnalyses | enhanced-sw.js:461-482 | Each analysis is posted to `/api/analytics/symptoms`. Any reply, ok or not, removes its row. Nothing is broadcast. |
| Replay.KindForTag | enhanced-sw.js:379-391 | Exactly the three queue tags select a drain, each its own. |
| Replay.OnSync | enhanced-sw.js:376-392 | The sync listener runs the drain of the fired tag. Any other tag changes nothing. |
| Replay.RemovalOnListing | enhanced-sw.js:692-717 | On its tag's listing, removal drops the first item with the timestamp. |
| Replay.DrainKeepsExactlyUndelivered | enhanced-sw.js:395-482 | When the listed items have distinct timestamps, a drain leaves listed exactly the undelivered items, in order. |
| Replay.DrainKeepsOtherTags | enhanced-sw.js:395-482 | A drain never changes another tag's listing. |
| Replay.NothingDeliveredNothingRemoved | enhanced-sw.js:419-422 | A drain in which no replay was delivered leaves the queue as it was and broadcasts nothing. |
| Replay.DrainOnlyRemoves | enhanced-sw.js:395-482 | A drain never adds rows: everything left was queued before. |
| Replay.PerformDataSync | enhanced-sw.js:746-758 | `DataSynced`: the booking drain, the alert drain and the analysis drain each satisfy `Drained`, in that order, between ghost checkpoints. The API refresh then satisfies `ApiRefreshed` over the rest of the log. Afterwards, no row has been added, other tags' listings are unchanged, and only the API partition can have changed. |
| Replay.DataSyncOnlyRemoves | enhanced-sw.js:746-758 | Any run satisfying `DataSynced` adds no row, leaves other tags' listings unchanged, and changes no partition except the API one. |
| Replay.OnPeriodicSync | enhanced-sw.js:740-744 | `data-sync` runs the periodic sync, so the run satisfies `DataSynced`. Any other tag changes nothing. |
| Lifecycle.InitializeBackgroundSync | enhanced-sw.js:729-737 | Where periodic sync exists, `data-sync` is registered with a one-day minimum interval when the browser accepts. Elsewhere nothing changes and the step succeeds. |
| Lifecycle.Activate | enhanced-sw.js:99-128 | Stale partitions are evicted and current ones kept intact. Armed background syncs are untouched. `SW_ACTIVATED` with version 2.0 is broadcast exactly when every step succeeded, which is always the case without periodic sync. |
| FetchEvent.OnFetch | enhanced-sw.js:131-155 | Each route satisfies its handler's predicate: a mutation `NonGetStep`, and the API, image, static and dynamic routes `ApiStrategy`, `ImageStrategy`, `StaticStrategy` and `DynamicStrategy`. A mutation never touches the caches. An ignored request touches nothing. A cached route touches only its own partition, never the queue or the registrations, and always answers. The dynamic partition never gains a URL with a static extension. |
| Notifications.Merged | enhanced-sw.js:488-503 | The notification's members are the defaults with every payload member overriding its default. Without a JSON payload they are the defaults. |
| Notifications.ComposeNotification | enhanced-sw.js:485-525 | The members are those of `Merged`. An appointment reminder gets its title, the doctor/time body and the confirm/reschedule actions. A medicine reminder gets its title, body and taken/snooze actions. Any other type keeps the merged members and has no actions. |
| Notifications.GenericWithoutPayload | enhanced-sw.js:488-503 | Without a parseable payload the notification is the generic default, with no type. |
| Notifications.TypeFromPayload | enhanced-sw.js:505-520 | The type that selects the customisation can only come from the payload. |
| Notifications.ClickTarget | enhanced-sw.js:532-544 | `confirm` and `reschedule` lead to their appointments views, and `taken` leads nowhere. Any other action leads to the notification's non-empty `data.url`, or else to the shell. |
| Notifications.ChooseWindow | enhanced-sw.js:546-560 | `ChoiceFor`: focus goes to the first client showing the target. Only when there is none is a window opened, and then only where that is possible. |
| Notifications.OnNotificationClick | enhanced-sw.js:528-561 | `taken` posts one medicine log entry and opens nothing, failing without a data object. Every other action makes no network call, and its window choice satisfies `ChoiceFor` for that action's `ClickTarget`. |
| ApiConfig.CurrentEnv | api-config.js:17 | The environment is `NODE_ENV` when set and non-empty, `development` otherwise. |
| ApiConfig.GetBaseURL | api-config.js:535-538 | The base URL is the current environment's, or the development one when the environment is unknown; it is always one of the three configured URLs. |
| ApiConfig.ProductionOnlyWhenAsked | api-config.js:535-538 | The production server is chosen exactly when `NODE_ENV` is `production`. An unset `NODE_ENV` gives development. |
| ApiConfig.BuildURL | api-config.js:541-543 | The URL starts with the base URL, and the endpoint is exactly what follows it. |
| ApiConfig.BuildURLInjective | api-config.js:541-543 | Different endpoints give different URLs. |
| ApiConfig.ValidateData | api-config.js:546-569 | The messages are those of `Errors` in model order. The data is valid exactly when there are none. |
| ApiConfig.ErrorsBounded | api-config.js:549-563 | Each model field contributes at most one error. |
| ApiConfig.ErrorsInModelOrder | api-config.js:549-563 | The errors of a concatenated model are the first part's followed by the second's. |
| ApiConfig.ErrorsForField | api-config.js:549-563 | For a model with distinct fields, the errors about one field are: exactly "missing" when the data lacks it; exactly one type error when its computed type differs; none otherwise. |
| ApiConfig.NoErrorsAbout | api-config.js:549-563 | A field the model does not name draws no error. |
| ApiConfig.ExtraDataIgnored | api-config.js:549-563 | Adding or removing data members the model does not name never changes the errors. |
| ReplayById.SameTimestampRemovesWrongRow | enhanced-sw.js:692-717 | Two bookings share a timestamp; the first replay fails and the second is delivered. Removal by timestamp then drops the failed one and keeps the delivered one. |
| ReplayById.ByIdKeepsExactlyUndelivered | enhanced-sw.js:395-427 | With removal by id, a drain over a valid queue leaves exactly the undelivered rows of its tag, in order, with no assumption on timestamps. |
| ShellFallback.ShellHasStaticExtension | enhanced-sw.js:578-581 | The shell's URL ends in `.html` for every origin, so it is a static resource. |
| ShellFallback.ShellNeverRoutedDynamic | enhanced-sw.js:146-153 | A request for the shell's own URL is never routed to the dynamic strategy, so that URL is never stored in the dynamic partition, unless a navigation to the shell with a fragment was cached online. |
| ShellFallback.ShellWithFragmentRoutedDynamic | enhanced-sw.js:146-153 | The shell's URL with the `#appointments` fragment has no extension the router knows, so a same-origin navigation to it is routed to the dynamic strategy, under a key different from the shell's own URL. |
| ShellFallback.DynamicShellLookupMisses | enhanced-sw.js:276-280 | In every cache state the fetch listener maintains, the dynamic partition has no entry under the shell's own URL, so an offline navigation that misses it gets the offline page, unless a navigation to the shell with a fragment was cached online (a fragment-blind lookup would then find that entry). |
| ClickFocus.ShellTargetsArePaths | enhanced-sw.js:532-544 | Every click target built from the shell path (`confirm`, `reschedule`, or no `data.url`) is a path starting with `/`. |
| ClickFocus.AsWrittenNeverFocuses | enhanced-sw.js:546-560 | When every open client has an absolute URL, a target built from the shell path is never focused. The listener opens a new window, or does nothing without `openWindow`. |
| ClickFocus.ChooseWindowCorrected | enhanced-sw.js:546-560 | Comparing against the target resolved against the origin: the choice satisfies `ChoiceFor` for the resolved URL. A client is focused exactly when some client shows that URL. A path resolved against an absolute origin is absolute. |
| ShellFallback.HandleDynamicRequestCorrected | enhanced-sw.js:276-280 | Reading the shell from the static partition, where install puts it, serves the installed shell to an offline navigation. |

## Left out

- The install listener (caching the essential resources, warming the API and image partitions, `skipWaiting`) is not part of this model. The shell finding relies only on install writing the shell to the static partition.
- `clients.claim()` at activation and `event.notification.close()` on a click change no state the model observes.
- Concurrency is not modelled: `Promise.all` in activation and in the periodic sync, the fire-and-forget background refresh, broadcast and medicine log. Steps run in sequence, and the detached refresh is a separate method (`RevalidateStatic`) that `OnFetch` requests through its `revalidate` result.
- IndexedDB plumbing is not modelled: opening the database, upgrade, transactions and their errors. The object store is a sequence of rows with an auto-increment key. A storage error, which would make a drain give up, is not modelled. One such error is a defect of the code: `getStoredData` and `removeStoredData` (enhanced-sw.js:666-717) open the database at version 1 without an `onupgradeneeded` handler. If the periodic `data-sync` registered at activation (enhanced-sw.js:729-737) is the first to open the database, the database is created without the `syncQueue` store. Every later `storeForBackgroundSync` then throws `NotFoundError` inside `onsuccess` (enhanced-sw.js:653), and its promise never settles, so a failed booking hangs instead of being queued. The model's queue always exists.
- The HTML page, the SVG placeholder and the JSON texts of the synthetic responses appear as tags (`OfflinePage`, `PlaceholderSvg`, `OfflineApiError`, `PendingSync`, `AlertQueued`). Response headers, including `X-Served-By`, appear only as the `servedFromCache` flag.
- `response.json()` after a delivered replay is not modelled: the broadcast carries the response body as it is. A body that fails to parse would skip the broadcast after the row was already removed.
- Push payloads are modelled as a JSON object of string members plus a `data` object. Non-object JSON, non-string members and actions supplied by the payload are left out.
- The JavaScript prototype chain is not modelled. `field in data` sees only own members, and a `NODE_ENV` naming an `Object.prototype` member counts as unknown.
- `Object.entries` key order is taken as the order of the model sequence. Integer-like keys, which JavaScript lists first, are not reordered.
- Clocks are parameters: one `now` per handler call. Every `Date.now()` read within one call shares that value.
- The URL regular expressions are modelled as ASCII case-insensitive suffix tests on the whole URL. Unicode case folding is left out.
- JSON escaping of the medicine name in `MedicineLogJson` is left out; the name is inserted as it is.
- The sync listener's default branch calls `syncOfflineActions`, which is defined nowhere. It is modelled as doing nothing, which is what the thrown `ReferenceError` leaves behind.
- Strategies.HandleApiRequest: assumes that `headers.set('X-Served-By', …)` on the clone of a cached response succeeds, and returns the copy marked `servedFromCache`. A response from `cache.match` has immutable headers, and `clone()` keeps that guard. So in a browser the call throws, and an offline API request with a cached entry is rejected instead of answered. `FetchEvent.OnFetch`'s promise that the API route always responds rests on the same assumption.
- ApiConfig.ValidateData: the data is a map of named values. `validateData` called with `null`, `undefined` or a primitive throws a `TypeError` at `field in data` (api-config.js:550), and the model cannot represent that input.
- ClickFocus.ChooseWindowCorrected: resolves only targets that start with `/`. A `data.url` relative to the worker script's directory is compared as it is.
- Replay.DrainKeepsExactlyUndelivered: requires the listed items of the tag to have distinct timestamps, because with equal timestamps the code as written can remove the wrong row (see Findings).
- Cache partitions are keyed by the whole URL string. The browser's `cache.match` ignores the URL fragment, and `cache.put` refuses a 206 response; neither is modelled, so a lookup finds only an entry stored under exactly the same URL, and a 206 that passes `response.ok` is stored.
- ShellFallback.ShellNeverRoutedDynamic: holds for the shell's exact URL only. A navigation to the shell with a fragment such as `#appointments` is routed to the dynamic strategy and stored under that URL in the dynamic partition (`ShellFallback.ShellWithFragmentRoutedDynamic`).
- ShellFallback.DynamicShellLookupMisses: relies on lookups by whole URL string. Once a navigation to the shell with a fragment was cached online, the browser's fragment-blind `cache.match` would find that entry, and the offline navigation would get that cached page instead of the offline page.
- Rows are listed in key order, as `getAll` on an auto-increment store returns them. Any other order a storage primitive might use is not modelled.

## Findings

| source | as written | input that shows it | evidently intended | confidence | as-written member | corrected member |
|---|---|---|---|---|---|---|
| enhanced-sw.js:692-717 | After a delivered replay, `removeStoredData(tag, timestamp)` deletes the first row with that tag and `data.timestamp`, which need not be the replayed row | Two bookings queued in the same millisecond (timestamp 7); the first replay fails and the second is delivered. The failed booking is removed and the delivered one stays queued, so it is sent again at the next sync | Delete the replayed row by its id, so exactly the undelivered rows stay queued | not executed | ReplayById.SameTimestampRemovesWrongRow | ReplayById.ByIdKeepsExactlyUndelivered |
| enhanced-sw.js:546-560 | The click listener compares `client.url`, which is always absolute, with a target built from the shell path, which is a path such as `/enhanced-nabha-health-pwa.html#appointments`; the two are never equal | A session open at `https://host/enhanced-nabha-health-pwa.html#appointments` and a click on `confirm`: a new window opens instead of the open session being focused | Compare against the target resolved against the worker's origin, so the session already showing it is focused | not executed | ClickFocus.AsWrittenNeverFocuses | ClickFocus.ChooseWindowCorrected |
| enhanced-sw.js:276-280 | The dynamic strategy's navigation fallback looks the shell up in the dynamic partition, where it is never stored unless a navigation to the shell with a fragment was cached online: the shell's own URL ends in `.html`, so it is routed to the static strategy | After install, with the shell in the static partition, an offline navigation to `/` (routed dynamic, not cached) gets the offline page instead of the shell | Read the shell from the static partition, where install puts it | not executed | ShellFallback.DynamicShellLookupMisses | ShellFallback.HandleDynamicRequestCorrected |

The sync methods (`Replay.Drain` and the three drains), `Strategies.HandleDynamicRequest`
and `Notifications.ChooseWindow` model the code as written. The corrected behaviour is stated beside them:
- `ReplayById.RemainingById`: removal by id.
- `ShellFallback.HandleDynamicRequestCorrected`: the shell read from the static partition.
- `ClickFocus.ChooseWindowCorrected`: the window choice against the resolved target.

=== FILE: api_config.dfy ===
/**
 * The behaviour in api-config.js: the base URL of the current environment, endpoint URL
 * building, and validateData, which checks an object against a field-to-type model.
 */
module ApiConfig {
  import opened Http
  import opened Text

  // ----- getBaseURL and buildURL -----

  const Development: string := "development"

  const Environments: map<string, string> := map[
    "development" := "http://localhost:3000/api/v1",
    "staging" := "https://staging-api.nabha-health.gov.in/api/v1",
    "production" := "https://api.nabha-health.gov.in/api/v1"]

  /** `CURRENT_ENV`: `NODE_ENV`, or `development` when it is unset or empty. */
  function CurrentEnv(nodeEnv: Option<string>): (env: string)
    ensures env != ""
    ensures nodeEnv.Some? && nodeEnv.value != "" ==> env == nodeEnv.value
    ensures !(nodeEnv.Some? && nodeEnv.value != "") ==> env == Development
  {
    if nodeEnv.Some? && nodeEnv.value != "" then nodeEnv.value else Development
  }

  /**
   * getBaseURL: the URL of the current environment when it has one, the development URL
   * otherwise; the result is always one of the three configured URLs.
   */
  function GetBaseURL(nodeEnv: Option<string>): (url: string)
    ensures url in Environments.Values
    ensures CurrentEnv(nodeEnv) in Environments ==> url == Environments[CurrentEnv(nodeEnv)]
    ensures CurrentEnv(nodeEnv) !in Environments ==> url == Environments[Development]
  {
    var env := CurrentEnv(nodeEnv);
    if env in Environments && Environments[env] != "" then Environments[env] else Environments[Development]
  }

  /** Only an explicit `production` setting reaches the production server; anything unknown goes to development. */
  lemma ProductionOnlyWhenAsked(nodeEnv: Option<string>)
    ensures GetBaseURL(nodeEnv) == Environments["production"] <==> nodeEnv == Some("production")
    ensures nodeEnv.None? ==> GetBaseURL(nodeEnv) == Environments[Development]
  {
    var env := CurrentEnv(nodeEnv);
    assert Environments["production"] != Environments[Development];
    assert Environments["production"] != Environments["staging"];
    if env in Environments {
      assert env == "development" || env == "staging" || env == "production";
    }
  }

  /** buildURL: the base URL followed by the endpoint; the endpoint can be read back off the end. */
  function BuildURL(nodeEnv: Option<string>, endpoint: string): (url: string)
    ensures StartsWith(url, GetBaseURL(nodeEnv))
    ensures url[|GetBaseURL(nodeEnv)|..] == endpoint
  {
    GetBaseURL(nodeEnv) + endpoint
  }

  /** Two endpoints give the same URL only when they are the same endpoint. */
  lemma BuildURLInjective(nodeEnv: Option<string>, e1: string, e2: string)
    requires BuildURL(nodeEnv, e1) == BuildURL(nodeEnv, e2)
    ensures e1 == e2
  {
    assert e1 == BuildURL(nodeEnv, e1)[|GetBaseURL(nodeEnv)|..];
  }

  // ----- validateData -----

  /** A JavaScript value, as far as `Array.isArray`, `instanceof Date` and `typeof` tell them apart. */
  datatype JsValue =
    | JsUndefined | JsNull | JsBoolean | JsNumber | JsBigInt | JsString | JsSymbol | JsFunction
    | JsArray | JsDate | JsObject

  /** The computed type: `array` for arrays, `date` for dates, otherwise `typeof` (so `object` for null). */
  function TypeOf(v: JsValue): string
  {
    match v
    case JsArray => "array"
    case JsDate => "date"
    case JsUndefined => "undefined"
    case JsNull => "object"
    case JsBoolean => "boolean"
    case JsNumber => "number"
    case JsBigInt => "bigint"
    case JsString => "string"
    case JsSymbol => "symbol"
    case JsFunction => "function"
    case JsObject => "object"
  }

  datatype FieldError =
    | Missing(field: string)
    | InvalidType(field: string, expected: string, got: string)

  /** The text pushed onto `errors` for each kind of failure. */
  function Message(e: FieldError): string
  {
    match e
    case Missing(f) => "Missing required field: " + f
    case InvalidType(f, expected, got) => "Invalid type for " + f + ": expected " + expected + ", got " + got
  }

  /** The model as `Object.entries` lists it: one (field, type) pair per key. */
  type Model = seq<(string, string)>

  /** The error one model entry contributes: at most one. */
  function FieldErrors(data: map<string, JsValue>, entry: (string, string)): seq<FieldError>
  {
    var (field, expected) := entry;
    if field !in data then [Missing(field)]
    else if TypeOf(data[field]) != expected then [InvalidType(field, expected, TypeOf(data[field]))]
    else []
  }

  /** The errors of a whole model, entry by entry in model order. */
  function Errors(data: map<string, JsValue>, model: Model): seq<FieldError>
    decreases |model|
  {
    if |model| == 0 then []
    else Errors(data, model[..|model| - 1]) + FieldErrors(data, model[|model| - 1])
  }

  /** The message of each error, in order. */
  function Messages(errors: seq<FieldError>): seq<string>
  {
    seq(|errors|, i requires 0 <= i < |errors| => Message(errors[i]))
  }

  /**
   * validateData: walk the model, recording a missing field and skipping to the next, or
   * a type mismatch; the data is valid exactly when nothing was recorded.
   */
  method ValidateData(data: map<string, JsValue>, model: Model) returns (isValid: bool, errors: seq<string>)
    ensures errors == Messages(Errors(data, model))
    ensures isValid <==> errors == []
    ensures isValid <==> Errors(data, model) == []
  {
    ghost var found: seq<FieldError> := [];
    errors := [];
    for i := 0 to |model|
      invariant found == Errors(data, model[..i])
      invariant errors == Messages(found)
    {
      var (field, expected) := model[i];
      assert model[..i + 1][..i] == model[..i];
      if field !in data {
        errors := errors + [Message(Missing(field))];
        found := found + [Missing(field)];
        continue;
      }
      var actual := TypeOf(data[field]);
      if actual != expected {
        errors := errors + [Message(InvalidType(field, expected, actual))];
        found := found + [InvalidType(field, expected, actual)];
      }
    }
    assert model[..|model|] == model;
    isValid := |errors| == 0;
  }

  /** Each model field contributes at most one error. */
  lemma {:induction false} ErrorsBounded(data: map<string, JsValue>, model: Model)
    ensures |Errors(data, model)| <= |model|
    decreases |model|
  {
    if |model| > 0 {
      ErrorsBounded(data, model[..|model| - 1]);
    }
  }

  /** Errors follow model order: the errors of `a + b` are those of `a`, then those of `b`. */
  lemma {:induction false} ErrorsInModelOrder(data: map<string, JsValue>, a: Model, b: Model)
    ensures Errors(data, a + b) == Errors(data, a) + Errors(data, b)
    decreases |b|
  {
    if |b| == 0 {
      assert a + b == a;
    } else {
      var n := |b| - 1;
      ErrorsInModelOrder(data, a, b[..n]);
      assert (a + b)[..|a + b| - 1] == a + b[..n];
    }
  }

  function ErrorsAbout(errors: seq<FieldError>, field: string): seq<FieldError>
    decreases |errors|
  {
    if |errors| == 0 then []
    else ErrorsAbout(errors[..|errors| - 1], field)
         + (if errors[|errors| - 1].field == field then [errors[|errors| - 1]] else [])
  }

  lemma {:induction false} ErrorsAboutAppend(a: seq<FieldError>, b: seq<FieldError>, field: string)
    ensures ErrorsAbout(a + b, field) == ErrorsAbout(a, field) + ErrorsAbout(b, field)
    decreases |b|
  {
    if |b| == 0 {
      assert a + b == a;
    } else {
      var n := |b| - 1;
      ErrorsAboutAppend(a, b[..n], field);
      assert (a + b)[..|a + b| - 1] == a + b[..n];
    }
  }

  predicate DistinctFields(model: Model)
  {
    forall i, j :: 0 <= i < j < |model| ==> model[i].0 != model[j].0
  }

  /**
   * The errors about one model field: exactly one "missing" error when the data lacks it
   * (and no type error), otherwise one type error exactly when its computed type differs.
   */
  lemma {:induction false} ErrorsForField(data: map<string, JsValue>, model: Model, i: nat)
    requires DistinctFields(model) && i < |model|
    ensures var (field, expected) := model[i];
      ErrorsAbout(Errors(data, model), field) ==
        if field !in data then [Missing(field)]
        else if TypeOf(data[field]) != expected then [InvalidType(field, expected, TypeOf(data[field]))]
        else []
    decreases |model|
  {
    var n := |model| - 1;
    var field := model[i].0;
    ErrorsAboutLast(data, model, field);
    ErrorsAboutEntry(data, model[n], field);
    if i == n {
      NoErrorsAbout(data, model[..n], field);
    } else {
      ErrorsForField(data, model[..n], i);
      assert model[..n][i] == model[i];
    }
  }

  /** The errors about `field` in a model are those of all but its last entry, then the last entry's. */
  lemma ErrorsAboutLast(data: map<string, JsValue>, model: Model, field: string)
    requires |model| > 0
    ensures ErrorsAbout(Errors(data, model), field) ==
      ErrorsAbout(Errors(data, model[..|model| - 1]), field) + ErrorsAbout(FieldErrors(data, model[|model| - 1]), field)
  {
    ErrorsAboutAppend(Errors(data, model[..|model| - 1]), FieldErrors(data, model[|model| - 1]), field);
  }

  /** One entry's error is about that entry's field only. */
  lemma ErrorsAboutEntry(data: map<string, JsValue>, entry: (string, string), field: string)
    ensures ErrorsAbout(FieldErrors(data, entry), field) == if entry.0 == field then FieldErrors(data, entry) else []
  {
    var errors := FieldErrors(data, entry);
    if |errors| == 1 {
      assert errors[..0] == [];
    }
  }

  /** A field the model does not name draws no error. */
  lemma {:induction false} NoErrorsAbout(data: map<string, JsValue>, model: Model, field: string)
    requires forall j :: 0 <= j < |model| ==> model[j].0 != field
    ensures ErrorsAbout(Errors(data, model), field) == []
    decreases |model|
  {
    if |model| > 0 {
      var n := |model| - 1;
      NoErrorsAbout(data, model[..n], field);
      ErrorsAboutAppend(Errors(data, model[..n]), FieldErrors(data, model[n]), field);
      assert ErrorsAbout(FieldErrors(data, model[n]), field) == [];
    }
  }

  /** Members of the data that the model does not name are ignored. */
  lemma {:induction false} ExtraDataIgnored(data: map<string, JsValue>, model: Model, key: string, v: JsValue)
    requires forall j :: 0 <= j < |model| ==> model[j].0 != key
    ensures Errors(data[key := v], model) == Errors(data, model)
    ensures Errors(data - {key}, model) == Errors(data, model)
    decreases |model|
  {
    if |model| > 0 {
      var n := |model| - 1;
      ExtraDataIgnored(data, model[..n], key, v);
      assert model[n].0 != key;
    }
  }
}

=== FILE: cache_storage.dfy ===
/**
 * The Cache Storage the service worker uses: named partitions mapping a request URL to
 * a stored response, and the activation-time eviction of partitions from other versions.
 */
module CacheStore {
  import opened Http

  /** One named cache: request URL to response; a put replaces the whole entry. */
  type Partition = map<string, Response>

  const StaticCache: string := "nabha-static-v2.0"
  const DynamicCache: string := "nabha-dynamic-v2.0"
  const ImageCache: string := "nabha-images-v2.0"
  const ApiCache: string := "nabha-api-v2.0"

  /** The partitions of the current version; every other name is stale at activation. */
  const ValidCaches: set<string> := {StaticCache, DynamicCache, ImageCache, ApiCache}

  /** The contents `caches.open(name)` yields: the partition, or a new empty one. */
  function PartitionOf(caches: map<string, Partition>, name: string): Partition
  {
    if name in caches then caches[name] else map[]
  }

  class CacheStorage {
    var partitions: map<string, Partition>

    constructor ()
      ensures partitions == map[]
    {
      partitions := map[];
    }

    /** `caches.open(name)`: creates the partition when it does not exist yet. */
    method Open(name: string)
      modifies this
      ensures partitions == old(partitions)[name := PartitionOf(old(partitions), name)]
    {
      partitions := partitions[name := PartitionOf(partitions, name)];
    }

    /** `cache.match(key)` on the partition `name`. */
    method Match(name: string, key: string) returns (r: Option<Response>)
      ensures r.Some? <==> key in PartitionOf(partitions, name)
      ensures r.Some? ==> r.value == PartitionOf(partitions, name)[key]
    {
      var p := PartitionOf(partitions, name);
      r := if key in p then Some(p[key]) else None;
    }

    /** `cache.put(key, response)` on the partition `name`: only that key changes. */
    method Put(name: string, key: string, response: Response)
      modifies this
      ensures partitions == old(partitions)[name := PartitionOf(old(partitions), name)[key := response]]
    {
      partitions := partitions[name := PartitionOf(partitions, name)[key := response]];
    }

    /** `caches.delete(name)`. */
    method Delete(name: string) returns (existed: bool)
      modifies this
      ensures existed == (name in old(partitions))
      ensures partitions == old(partitions) - {name}
    {
      existed := name in partitions;
      partitions := partitions - {name};
    }

    /** `caches.keys()`. */
    method Names() returns (names: set<string>)
      ensures names == partitions.Keys
    {
      names := partitions.Keys;
    }
  }

  /** Every partition other than `name` is as it was, present or absent. */
  ghost predicate OnlyChanged(before: map<string, Partition>, after: map<string, Partition>, name: string)
  {
    forall n :: n != name ==> (n in after <==> n in before) && (n in after ==> after[n] == before[n])
  }

  /** What survives activation: exactly the current-version partitions that existed, untouched. */
  function WithoutStale(caches: map<string, Partition>): (r: map<string, Partition>)
    ensures r.Keys == caches.Keys * ValidCaches
    ensures forall name :: name in r ==> r[name] == caches[name]
  {
    map name | name in caches && name in ValidCaches :: caches[name]
  }

  /** The activate listener's clean-up: delete every partition whose name is not a current one. */
  method DeleteStaleCaches(storage: CacheStorage)
    modifies storage
    ensures storage.partitions == WithoutStale(old(storage.partitions))
  {
    ghost var before := storage.partitions;
    var names := storage.Names();
    while names != {}
      invariant names <= before.Keys
      invariant storage.partitions == map n | n in before && (n in ValidCaches || n in names) :: before[n]
      decreases names
    {
      var name :| name in names;
      if name !in ValidCaches {
        var _ := storage.Delete(name);
      }
      names := names - {name};
    }
  }
}

=== FILE: click_focus.dfy ===
/**
 * The click listener compares each open session's `client.url` with its target by string
 * equality. A session's URL is always absolute (scheme, host, path), while every target
 * built from the shell path is a path on the worker's own origin. As written, a click on
 * `confirm` or `reschedule`, or on a notification without a `data.url`, therefore never
 * focuses an open session: it always opens a new window. Comparing against the target
 * resolved against the origin focuses the session that already shows it.
 */
module ClickFocus {
  import opened Http
  import opened Text
  import opened Strategies
  import opened Notifications

  /** A URL as `client.url` reports it: absolute, starting with its scheme. */
  predicate AbsoluteUrl(u: string)
  {
    StartsWith(u, "https://") || StartsWith(u, "http://")
  }

  /** A path on the worker's own origin. */
  predicate OriginPath(u: string)
  {
    |u| > 0 && u[0] == '/'
  }

  // ----- As written: a target built from the shell path is never found open -----

  /** Targets built from the shell path are paths, never absolute URLs. */
  lemma ShellTargetsArePaths(action: string, data: Option<ClickData>)
    requires action != "taken" && (action == "confirm" || action == "reschedule" || !HasUrl(data))
    ensures OriginPath(ClickTarget(action, data).value)
  {
    var target := ClickTarget(action, data).value;
    assert AppShellPath[0] == '/';
    assert StartsWith(target, AppShellPath);
    assert target[0] == target[..|AppShellPath|][0];
  }

  /** An absolute URL is never equal to a path. */
  lemma AbsoluteIsNotPath(u: string, p: string)
    requires AbsoluteUrl(u) && OriginPath(p)
    ensures u != p
  {
    assert u[0] == u[..|"http://"|][0] == 'h';
  }

  /**
   * With every open session at an absolute URL, the click listener as written opens a new
   * window (or does nothing without `openWindow`) for a target built from the shell path,
   * even when a session already shows exactly that page.
   */
  lemma AsWrittenNeverFocuses(action: string, data: Option<ClickData>, clients: seq<WindowClient>,
                              canOpenWindow: bool, choice: Choice)
    requires action != "taken" && (action == "confirm" || action == "reschedule" || !HasUrl(data))
    requires forall j :: 0 <= j < |clients| ==> AbsoluteUrl(clients[j].url)
    requires ChoiceFor(clients, ClickTarget(action, data).value, canOpenWindow, choice)
    ensures choice == if canOpenWindow then OpenWindow(ClickTarget(action, data).value) else NoWindow
  {
    var target := ClickTarget(action, data).value;
    ShellTargetsArePaths(action, data);
    if choice.Focus? {
      AbsoluteIsNotPath(clients[choice.index].url, target);
      assert false;
    }
  }

  // ----- Corrected: compare against the target resolved against the origin -----

  /** The target as a session showing it reports its URL: a path is resolved against the origin. */
  function Resolved(origin: string, target: string): string
  {
    if OriginPath(target) then Resolve(origin, target) else target
  }

  /**
   * The window choice made against the resolved target: a session already showing the
   * page is focused (the first one), and a window is opened only when none shows it.
   */
  method ChooseWindowCorrected(clients: seq<WindowClient>, origin: string, target: string, canOpenWindow: bool)
    returns (choice: Choice)
    ensures ChoiceFor(clients, Resolved(origin, target), canOpenWindow, choice)
    ensures (exists j :: 0 <= j < |clients| && Showing(clients[j], Resolved(origin, target))) <==> choice.Focus?
    ensures OriginPath(target) && AbsoluteUrl(origin) ==> AbsoluteUrl(Resolved(origin, target))
  {
    choice := ChooseWindow(clients, Resolved(origin, target), canOpenWindow);
    if OriginPath(target) && AbsoluteUrl(origin) {
      ResolvedIsAbsolute(origin, target);
    }
  }

  lemma ResolvedIsAbsolute(origin: string, target: string)
    requires OriginPath(target) && AbsoluteUrl(origin)
    ensures AbsoluteUrl(Resolved(origin, target))
  {
    var u := Resolved(origin, target);
    assert u == origin + target;
    if StartsWith(origin, "https://") {
      assert u[..|"https://"|] == origin[..|"https://"|];
    } else {
      assert u[..|"http://"|] == origin[..|"http://"|];
    }
  }
}

=== FILE: fetch_event.dfy ===
/**
 * The fetch listener: non-GET requests take the mutation path, cross-origin requests off
 * the allow-list are left to the browser, and every other request runs the strategy of
 * its route against that route's partition.
 */
module FetchEvent {
  import opened Http
  import opened Platform
  import opened Routing
  import opened CacheStore
  import opened Strategies
  import opened Outbox
  import opened Mutations

  predicate Cached(r: Route)
  {
    r == Api || r == Image || r == Static || r == Dynamic
  }

  /** The partition a caching route reads and writes. */
  function PartitionFor(r: Route): (name: string)
    requires Cached(r)
    ensures name in ValidCaches
  {
    match r
    case Api => ApiCache
    case Image => ImageCache
    case Static => StaticCache
    case Dynamic => DynamicCache
  }

  /**
   * Every key of the dynamic partition is the URL of a request routed to the dynamic
   * strategy, so none of them ends in a static-resource extension.
   */
  ghost predicate DynamicKeysNotStatic(caches: map<string, Partition>)
  {
    forall k :: k in PartitionOf(caches, DynamicCache) ==> !HasExtension(k, StaticExtensions)
  }

  /**
   * The periodic refresh writes exactly the keys the API route reads: a same-origin GET
   * of a refreshed endpoint, at its resolved URL, is routed to the API strategy, whose
   * partition is the one the refresh updates, and its lookup key is that endpoint's key.
   */
  lemma RefreshKeysServedByApiRoute(origin: string, selfOrigin: string, req: Request, i: int)
    requires 0 <= i < |ApiEndpoints|
    requires req.verb == "GET" && req.origin == selfOrigin
    requires req.url == EndpointKeys(origin)[i] && req.pathname == ApiEndpoints[i]
    ensures Classify(req, selfOrigin) == Api && PartitionFor(Classify(req, selfOrigin)) == ApiCache
    ensures req.url == Resolve(origin, ApiEndpoints[i]) && req.url in EndpointKeys(origin)
  {
    assert req.pathname[..5] == ApiEndpoints[i][..5] == "/api/";
  }

  /**
   * One fetch event. `revalidate` asks for the detached refresh of a static cache hit
   * (RevalidateStatic). A mutation never touches the caches; a request the listener
   * ignores touches nothing at all; a cached route touches only its own partition and
   * never the queue or the sync registrations.
   */
  method OnFetch(req: Request, selfOrigin: string, now: nat,
                 caches: CacheStorage, net: Network, q: SyncQueue, reg: Registration)
    returns (out: Outcome, revalidate: bool)
    requires q.Valid()
    modifies caches, net, q, reg
    ensures q.Valid()
    ensures revalidate ==> Classify(req, selfOrigin) == Static
    ensures Classify(req, selfOrigin) == Mutation ==>
      caches.partitions == old(caches.partitions) && OneFetch(old(net.log), net.log, SentFor(req))
      && NonGetStep(old(q.rows), q.rows, old(q.nextId), old(reg.syncTags), reg.syncTags,
                    reg.backgroundSyncSupported, old(net.log), net.log, req, now, out)
    ensures Classify(req, selfOrigin) == Api ==>
      ApiStrategy(old(caches.partitions), caches.partitions, old(net.log), net.log, req, now, out)
    ensures Classify(req, selfOrigin) == Image ==>
      ImageStrategy(old(caches.partitions), caches.partitions, old(net.log), net.log, req, out)
    ensures Classify(req, selfOrigin) == Static ==>
      StaticStrategy(old(caches.partitions), caches.partitions, old(net.log), net.log, req, selfOrigin, out, revalidate)
    ensures Classify(req, selfOrigin) == Dynamic ==>
      DynamicStrategy(old(caches.partitions), caches.partitions, old(net.log), net.log, req, selfOrigin, out)
    ensures Classify(req, selfOrigin) == Ignored ==>
      out == NotIntercepted && caches.partitions == old(caches.partitions) && net.log == old(net.log)
      && q.rows == old(q.rows) && reg.syncTags == old(reg.syncTags)
    ensures Cached(Classify(req, selfOrigin)) ==>
      OnlyChanged(old(caches.partitions), caches.partitions, PartitionFor(Classify(req, selfOrigin)))
      && q.rows == old(q.rows) && reg.syncTags == old(reg.syncTags) && reg.periodic == old(reg.periodic)
      && out != NotIntercepted
    ensures Classify(req, selfOrigin) in {Api, Image} ==> out.Respond?
    ensures DynamicKeysNotStatic(old(caches.partitions)) ==> DynamicKeysNotStatic(caches.partitions)
  {
    revalidate := false;
    match Classify(req, selfOrigin) {
      case Mutation =>
        out := HandleNonGetRequest(req, now, net, q, reg);
      case Ignored =>
        out := NotIntercepted;
      case Api =>
        out := HandleApiRequest(caches, net, req, now);
      case Image =>
        out := HandleImageRequest(caches, net, req);
      case Static =>
        out, revalidate := HandleStaticResource(caches, net, req, selfOrigin);
      case Dynamic =>
        out := HandleDynamicRequest(caches, net, req, selfOrigin);
    }
  }
}

=== FILE: http.dfy ===
/**
 * Requests, responses and the outcome of a fetch, as the offline layer sees them.
 * Bodies that the layer synthesises itself are tagged constants; their HTML, SVG and
 * JSON text is not modelled.
 */
module Http {

  datatype Option<T> = None | Some(value: T)

  function GetOr<T>(o: Option<T>, default: T): T
  {
    match o
    case Some(v) => v
    case None => default
  }

  datatype Body =
    | Content(text: string)             // whatever the network or a cache delivered
    | OfflinePage                       // the HTML page of createOfflineResponse
    | OfflineApiError(timestamp: nat)   // {error: "offline", message, offline: true, timestamp}
    | PlaceholderSvg                    // the "Image unavailable offline" SVG
    | PendingSync(id: string)           // {success: true, id, status: "pending-sync", message}
    | AlertQueued                       // {success: true, message, status: "queued"}

  /** A response; `servedFromCache` records the `X-Served-By: ServiceWorker-Cache` header. */
  datatype Response = Response(status: int, body: Body, servedFromCache: bool)

  /** `response.ok`: the status is in the 2xx range. */
  predicate Ok(r: Response)
  {
    200 <= r.status <= 299
  }

  /** A fetch either resolves with a response (of any status) or rejects with a transport error. */
  datatype FetchResult = Fetched(response: Response) | NetworkError

  predicate Succeeded(f: FetchResult)
  {
    f.Fetched? && Ok(f.response)
  }

  /**
   * An intercepted request. `origin` and `pathname` are the parts of `new URL(url)`;
   * `json` is the body as `request.json()` parses it, None when that parse throws.
   */
  datatype Request = Request(
    verb: string,
    url: string,
    origin: string,
    pathname: string,
    destination: string,
    mode: string,
    headers: map<string, string>,
    json: Option<string>)

  /** What goes over the wire: the method, URL, headers and body of one fetch. */
  datatype Sent = Sent(verb: string, url: string, headers: map<string, string>, body: Option<string>)

  function SentFor(req: Request): Sent
  {
    Sent(req.verb, req.url, req.headers, req.json)
  }

  /** How a fetch event ends: `respondWith` a response, `respondWith` a rejected promise, or not intercepted. */
  datatype Outcome = Respond(response: Response) | Rejected | NotIntercepted

  const JsonHeaders: map<string, string> := map["Content-Type" := "application/json"]
}

=== FILE: lifecycle.dfy ===
/**
 * The activate listener: evict every cache partition that is not one of the four current
 * ones, arm the daily periodic sync where the platform has it, and tell the open sessions
 * that version 2.0 is active.
 */
module Lifecycle {
  import opened CacheStore
  import opened Platform
  import opened Outbox

  const Version: string := "2.0"

  /** The minimum interval of the periodic sync, one day in milliseconds. */
  const DailyMs: nat := 24 * 60 * 60 * 1000

  /**
   * initializeBackgroundSync: register `data-sync` once a day where periodic sync exists;
   * elsewhere there is nothing to do and the step succeeds.
   */
  method InitializeBackgroundSync(reg: Registration) returns (ok: bool)
    modifies reg
    ensures reg.syncTags == old(reg.syncTags)
    ensures !reg.periodicSyncSupported ==> ok && reg.periodic == old(reg.periodic)
    ensures reg.periodic == if reg.periodicSyncSupported && ok then old(reg.periodic)[DataSyncTag := DailyMs] else old(reg.periodic)
  {
    if reg.periodicSyncSupported {
      ok := reg.RegisterPeriodic(DataSyncTag, DailyMs);
    } else {
      ok := true;
    }
  }

  /**
   * The activate listener. Eviction always happens; the `SW_ACTIVATED` broadcast follows
   * only when every step succeeded, so a refused periodic registration suppresses it
   * (`ready` is false). Queued mutations and armed background syncs are untouched.
   */
  method Activate(caches: CacheStorage, reg: Registration, clients: Clients) returns (ready: bool)
    modifies caches, reg, clients
    ensures caches.partitions == WithoutStale(old(caches.partitions))
    ensures forall name :: name in caches.partitions ==> name in ValidCaches
    ensures forall name :: name in ValidCaches && name in old(caches.partitions) ==>
      name in caches.partitions && caches.partitions[name] == old(caches.partitions)[name]
    ensures reg.syncTags == old(reg.syncTags)
    ensures reg.periodic == if reg.periodicSyncSupported && ready then old(reg.periodic)[DataSyncTag := DailyMs] else old(reg.periodic)
    ensures !reg.periodicSyncSupported ==> ready
    ensures clients.posted == old(clients.posted) + (if ready then [Activated(Version)] else [])
  {
    DeleteStaleCaches(caches);
    ready := InitializeBackgroundSync(reg);
    if ready {
      clients.Broadcast(Activated(Version));
    }
  }
}

=== FILE: mutations.dfy ===
/**
 * The mutation path of the fetch listener: appointment bookings and emergency alerts
 * that cannot reach the network are queued for background sync and answered with an
 * optimistic 202; every other non-GET request passes straight to the network.
 */
module Mutations {
  import opened Http
  import opened Text
  import opened Platform
  import opened Outbox

  /** The optimistic booking id, `'offline-' + Date.now()`. */
  function OfflineId(now: nat): (id: string)
    ensures StartsWith(id, "offline-") && |id| > |"offline-"|
    ensures id[|"offline-"|..] == Decimal(now)
  {
    "offline-" + Decimal(now)
  }

  /** The 202 answer to a booking that has been queued. */
  function PendingSyncResponse(now: nat): Response
  {
    Response(202, PendingSync(OfflineId(now)), false)
  }

  /** The 202 answer to an emergency alert that has been queued. */
  const AlertQueuedResponse: Response := Response(202, AlertQueued, false)

  /** The queued booking: url, method, every header, the parsed body and the time. */
  function BookingData(req: Request, body: string, now: nat): SyncData
  {
    SyncData(req.url, req.verb, Some(req.headers), body, now, None)
  }

  /** The queued alert: url, method, the parsed body, the time and `priority: 'high'`; no headers. */
  function AlertData(req: Request, body: string, now: nat): SyncData
  {
    SyncData(req.url, req.verb, None, body, now, Some("high"))
  }

  /**
   * One run of handleAppointmentBooking took the queue rows from `rows0` to `rows1` (the
   * key generator at `nextId`), the armed sync tags from `tags0` to `tags1` and the network
   * log from `log0` to `log1`, and answered `out`.
   */
  ghost predicate BookingStep(rows0: seq<Row>, rows1: seq<Row>, nextId: nat, tags0: set<string>, tags1: set<string>,
                              syncSupported: bool, log0: seq<Exchange>, log1: seq<Exchange>,
                              req: Request, now: nat, out: Outcome)
  {
    OneFetch(log0, log1, SentFor(req))
    && (Succeeded(LastResult(log1)) ==>
          out == Respond(LastResult(log1).response) && rows1 == rows0 && tags1 == tags0)
    && (!Succeeded(LastResult(log1)) && req.json.None? ==>
          out == Rejected && rows1 == rows0 && tags1 == tags0)
    && (!Succeeded(LastResult(log1)) && req.json.Some? ==>
          rows1 == rows0 + [Row(nextId, BookingTag, BookingData(req, req.json.value, now), now)]
          && (out == Respond(PendingSyncResponse(now)) || out == Rejected)
          && (out == Rejected || syncSupported)
          && tags1 == (if out == Rejected then tags0 else tags0 + {BookingTag}))
  }

  /**
   * handleAppointmentBooking: an ok response goes back as it is; a non-ok response or a
   * transport failure queues the booking, arms the `appointment-booking` sync and answers
   * 202 pending-sync. A body that is not JSON, or a sync registration that fails (no
   * background sync on the platform, or a refusal by the browser), makes the handler throw
   * (the page sees a network error); the row is queued first in the second case.
   */
  method HandleAppointmentBooking(req: Request, now: nat, net: Network, q: SyncQueue, reg: Registration)
    returns (out: Outcome)
    requires q.Valid()
    modifies net, q, reg
    ensures q.Valid()
    ensures reg.periodic == old(reg.periodic)
    ensures BookingStep(old(q.rows), q.rows, old(q.nextId), old(reg.syncTags), reg.syncTags,
                        reg.backgroundSyncSupported, old(net.log), net.log, req, now, out)
  {
    var result := net.Fetch(SentFor(req));
    if Succeeded(result) {
      return Respond(result.response);
    }
    if req.json.None? {
      return Rejected;
    }
    StoreForBackgroundSync(q, BookingTag, BookingData(req, req.json.value, now), now);
    var registered := reg.RegisterSync(BookingTag);
    if !registered {
      return Rejected;
    }
    out := Respond(PendingSyncResponse(now));
  }

  /** One run of handleEmergencyAlert, over the same state as BookingStep. */
  ghost predicate AlertStep(rows0: seq<Row>, rows1: seq<Row>, nextId: nat, tags0: set<string>, tags1: set<string>,
                            syncSupported: bool, log0: seq<Exchange>, log1: seq<Exchange>,
                            req: Request, now: nat, out: Outcome)
  {
    OneFetch(log0, log1, SentFor(req))
    && (LastResult(log1).Fetched? ==>
          out == Respond(LastResult(log1).response) && rows1 == rows0 && tags1 == tags0)
    && (LastResult(log1).NetworkError? && req.json.None? ==>
          out == Rejected && rows1 == rows0 && tags1 == tags0)
    && (LastResult(log1).NetworkError? && req.json.Some? ==>
          rows1 == rows0 + [Row(nextId, AlertTag, AlertData(req, req.json.value, now), now)]
          && (out == Respond(AlertQueuedResponse) || out == Rejected)
          && (out == Rejected || syncSupported)
          && tags1 == (if out == Rejected then tags0 else tags0 + {AlertTag}))
  }

  /**
   * handleEmergencyAlert: any network response, ok or not, goes back as it is; only a
   * transport failure queues the alert, arms the `emergency-alert` sync and answers 202
   * queued; the same failures as for a booking make it throw instead.
   */
  method HandleEmergencyAlert(req: Request, now: nat, net: Network, q: SyncQueue, reg: Registration)
    returns (out: Outcome)
    requires q.Valid()
    modifies net, q, reg
    ensures q.Valid()
    ensures reg.periodic == old(reg.periodic)
    ensures AlertStep(old(q.rows), q.rows, old(q.nextId), old(reg.syncTags), reg.syncTags,
                      reg.backgroundSyncSupported, old(net.log), net.log, req, now, out)
  {
    var result := net.Fetch(SentFor(req));
    if result.Fetched? {
      return Respond(result.response);
    }
    if req.json.None? {
      return Rejected;
    }
    StoreForBackgroundSync(q, AlertTag, AlertData(req, req.json.value, now), now);
    var registered := reg.RegisterSync(AlertTag);
    if !registered {
      return Rejected;
    }
    out := Respond(AlertQueuedResponse);
  }

  /** Which handler a non-GET request goes to. */
  datatype MutationKind = Booking | Alert | PassThrough

  function KindOf(req: Request): (k: MutationKind)
    ensures k == Booking <==> Contains(req.url, "/api/appointments") && req.verb == "POST"
    ensures k == Alert <==>
      !(Contains(req.url, "/api/appointments") && req.verb == "POST")
      && Contains(req.url, "/api/emergency") && req.verb == "POST"
  {
    if Contains(req.url, "/api/appointments") && req.verb == "POST" then Booking
    else if Contains(req.url, "/api/emergency") && req.verb == "POST" then Alert
    else PassThrough
  }

  /**
   * One run of handleNonGetRequest: the step of the handler the request's kind selects; a
   * request of neither kind is fetched as it is, queues nothing and sees the result.
   */
  ghost predicate NonGetStep(rows0: seq<Row>, rows1: seq<Row>, nextId: nat, tags0: set<string>, tags1: set<string>,
                             syncSupported: bool, log0: seq<Exchange>, log1: seq<Exchange>,
                             req: Request, now: nat, out: Outcome)
  {
    match KindOf(req)
    case Booking => BookingStep(rows0, rows1, nextId, tags0, tags1, syncSupported, log0, log1, req, now, out)
    case Alert => AlertStep(rows0, rows1, nextId, tags0, tags1, syncSupported, log0, log1, req, now, out)
    case PassThrough =>
      OneFetch(log0, log1, SentFor(req)) && rows1 == rows0 && tags1 == tags0
      && out == match LastResult(log1) case Fetched(r) => Respond(r) case NetworkError => Rejected
  }

  /**
   * handleNonGetRequest: bookings and alerts go to their handlers; every other request
   * is fetched as it is and its result, response or failure, is what the page sees.
   * Only the first two can queue anything, and at most one row of their own tag.
   */
  method HandleNonGetRequest(req: Request, now: nat, net: Network, q: SyncQueue, reg: Registration)
    returns (out: Outcome)
    requires q.Valid()
    modifies net, q, reg
    ensures q.Valid()
    ensures reg.periodic == old(reg.periodic)
    ensures NonGetStep(old(q.rows), q.rows, old(q.nextId), old(reg.syncTags), reg.syncTags,
                       reg.backgroundSyncSupported, old(net.log), net.log, req, now, out)
    ensures KindOf(req) != PassThrough ==>
      q.rows == old(q.rows)
      || (|q.rows| == |old(q.rows)| + 1 && q.rows[..|old(q.rows)|] == old(q.rows)
          && q.rows[|old(q.rows)|].tag == (if KindOf(req) == Booking then BookingTag else AlertTag))
  {
    match KindOf(req) {
      case Booking =>
        out := HandleAppointmentBooking(req, now, net, q, reg);
      case Alert =>
        out := HandleEmergencyAlert(req, now, net, q, reg);
      case PassThrough =>
        var result := net.Fetch(SentFor(req));
        out := match result case Fetched(r) => Respond(r) case NetworkError => Rejected;
    }
  }
}

=== FILE: notifications.dfy ===
/**
 * The push listener's notification composition and the notificationclick listener's
 * choice of what to do: which in-app location to show, and whether to focus an open
 * window, open a new one, or only log a taken medicine.
 */
module Notifications {
  import opened Http
  import opened Text
  import opened Platform
  import opened Strategies

  /** The `data` object a push payload may carry; the click listener reads `url` and `medicine`. */
  datatype ClickData = ClickData(url: Option<string>, medicine: Option<string>)

  /**
   * What `event.data` holds: nothing, text that is not JSON, or a JSON object whose
   * string-valued members are `fields` and whose `data` member is `data`.
   */
  datatype PushData =
    | NoData
    | Unparseable
    | Payload(fields: map<string, string>, data: Option<ClickData>)

  datatype Action = Action(action: string, title: string, icon: string)

  /** The options handed to `showNotification`; its title is `fields["title"]`. */
  datatype Notification = Notification(fields: map<string, string>, actions: seq<Action>, data: Option<ClickData>)

  const Defaults: map<string, string> := map[
    "title" := "Nabha HealthConnect",
    "body" := "You have a new notification",
    "icon" := "/assets/icons/icon-192.png",
    "badge" := "/assets/icons/badge-72.png",
    "tag" := "default"]

  const AppointmentReminder: string := "appointment-reminder"
  const MedicineReminder: string := "medicine-reminder"

  const AppointmentActions: seq<Action> := [
    Action("confirm", "Confirm", "/assets/icons/confirm.png"),
    Action("reschedule", "Reschedule", "/assets/icons/reschedule.png")]

  const MedicineActions: seq<Action> := [
    Action("taken", "Taken", "/assets/icons/check.png"),
    Action("snooze", "Remind Later", "/assets/icons/snooze.png")]

  /** A member as a template literal shows it: its text, or `undefined` when it is absent. */
  function Show(fields: map<string, string>, key: string): string
  {
    if key in fields then fields[key] else "undefined"
  }

  function AppointmentBody(fields: map<string, string>): string
  {
    "Your appointment with " + Show(fields, "doctor") + " is tomorrow at " + Show(fields, "time")
  }

  function MedicineBody(fields: map<string, string>): string
  {
    "Time to take your " + Show(fields, "medicine")
  }

  /** `{ ...defaults, ...payload }`: every payload member overrides its default. */
  function Merged(push: PushData): (m: map<string, string>)
    ensures forall k :: k in m <==> k in Defaults || (push.Payload? && k in push.fields)
    ensures forall k :: k in m ==>
      m[k] == if push.Payload? && k in push.fields then push.fields[k] else Defaults[k]
  {
    if push.Payload? then Defaults + push.fields else Defaults
  }

  /**
   * The push listener: start from the defaults, let the payload's members override them,
   * then give the two reminder types their own title, body and actions; any other type
   * keeps the merged members and has no actions.
   */
  method ComposeNotification(push: PushData) returns (n: Notification)
    ensures n.fields.Keys == Merged(push).Keys
    ensures n.data == if push.Payload? then push.data else None
    ensures forall k :: k in n.fields && k != "title" && k != "body" ==> n.fields[k] == Merged(push)[k]
    ensures Show(Merged(push), "type") == AppointmentReminder ==>
      n.fields["title"] == "Appointment Reminder" && n.fields["body"] == AppointmentBody(Merged(push))
      && n.actions == AppointmentActions
    ensures Show(Merged(push), "type") == MedicineReminder ==>
      n.fields["title"] == "Medicine Reminder" && n.fields["body"] == MedicineBody(Merged(push))
      && n.actions == MedicineActions
    ensures Show(Merged(push), "type") != AppointmentReminder && Show(Merged(push), "type") != MedicineReminder ==>
      n.fields == Merged(push) && n.actions == []
  {
    var fields := Merged(push);
    var data: Option<ClickData> := if push.Payload? then push.data else None;
    var actions: seq<Action> := [];
    var kind := Show(fields, "type");
    if kind == AppointmentReminder {
      var body := AppointmentBody(fields);
      fields := fields["title" := "Appointment Reminder"];
      fields := fields["body" := body];
      actions := AppointmentActions;
    } else if kind == MedicineReminder {
      var body := MedicineBody(fields);
      fields := fields["title" := "Medicine Reminder"];
      fields := fields["body" := body];
      actions := MedicineActions;
    }
    n := Notification(fields, actions, data);
  }

  /** Without a JSON object payload the generic notification is shown: the defaults and no actions. */
  lemma GenericWithoutPayload(push: PushData)
    requires !push.Payload?
    ensures Merged(push) == Defaults && Show(Merged(push), "type") == "undefined"
  {
    assert "type" !in Defaults;
  }

  /** The type only comes from the payload: the defaults carry none. */
  lemma TypeFromPayload(push: PushData)
    ensures Show(Merged(push), "type") == if push.Payload? then Show(push.fields, "type") else "undefined"
  {
    assert "type" !in Defaults;
  }

  /**
   * Where a click leads: the shell's appointments view for `confirm` and `reschedule`,
   * nowhere for `taken`, otherwise the notification's own `data.url` when it is a
   * non-empty string and the shell itself when it is not.
   */
  function ClickTarget(action: string, data: Option<ClickData>): (target: Option<string>)
    ensures action == "taken" <==> target.None?
    ensures action == "confirm" ==> target == Some(AppShellPath + "#appointments")
    ensures action == "reschedule" ==> target == Some(AppShellPath + "#appointments?action=reschedule")
    ensures action !in {"confirm", "reschedule", "taken"} ==>
      target == Some(if HasUrl(data) then data.value.url.value else AppShellPath)
    ensures target.Some? && !HasUrl(data) ==> StartsWith(target.value, AppShellPath)
  {
    if action == "confirm" then Some(AppShellPath + "#appointments")
    else if action == "reschedule" then Some(AppShellPath + "#appointments?action=reschedule")
    else if action == "taken" then None
    else if HasUrl(data) then Some(data.value.url.value)
    else Some(AppShellPath)
  }

  /** `data && data.url`: there is a data object whose `url` is a non-empty string. */
  predicate HasUrl(data: Option<ClickData>)
  {
    data.Some? && data.value.url.Some? && data.value.url.value != ""
  }

  /** One entry of `clients.matchAll({includeUncontrolled: true})`. */
  datatype WindowClient = WindowClient(url: string, focusable: bool)

  predicate Showing(c: WindowClient, target: string)
  {
    c.url == target && c.focusable
  }

  datatype Choice = Focus(index: nat) | OpenWindow(url: string) | NoWindow

  /**
   * The choice the click listener makes among `clients` for `target`: the first open
   * client already showing the target is focused; when there is none a new window is
   * opened where `clients.openWindow` exists, and otherwise nothing happens.
   */
  ghost predicate ChoiceFor(clients: seq<WindowClient>, target: string, canOpenWindow: bool, choice: Choice)
  {
    (choice.Focus? ==>
      choice.index < |clients| && Showing(clients[choice.index], target)
      && forall j :: 0 <= j < choice.index ==> !Showing(clients[j], target))
    && (!choice.Focus? ==>
      (forall j :: 0 <= j < |clients| ==> !Showing(clients[j], target))
      && choice == if canOpenWindow then OpenWindow(target) else NoWindow)
  }

  /** The loop over `clients.matchAll({includeUncontrolled: true})` and the `openWindow` fallback. */
  method ChooseWindow(clients: seq<WindowClient>, target: string, canOpenWindow: bool) returns (choice: Choice)
    ensures ChoiceFor(clients, target, canOpenWindow, choice)
  {
    var i := 0;
    while i < |clients|
      invariant 0 <= i <= |clients|
      invariant forall j :: 0 <= j < i ==> !Showing(clients[j], target)
    {
      if Showing(clients[i], target) {
        return Focus(i);
      }
      i := i + 1;
    }
    choice := if canOpenWindow then OpenWindow(target) else NoWindow;
  }

  /** The body logMedicineTaken posts, `{"medicine":…,"timestamp":…,"action":"taken"}`; an absent medicine is omitted. */
  function MedicineLogJson(medicine: Option<string>, now: nat): string
  {
    "{" + (if medicine.Some? then "\"medicine\":\"" + medicine.value + "\"," else "")
    + "\"timestamp\":" + Decimal(now) + ",\"action\":\"taken\"}"
  }

  const MedicineLogPath: string := "/api/medicine/log"

  datatype ClickOutcome = Chose(choice: Choice) | MedicineLogged | Failed

  /**
   * The notificationclick listener. `taken` posts the log entry and opens nothing (with
   * no data object the listener throws before posting); every other action picks a
   * target and then a window.
   */
  method OnNotificationClick(action: string, data: Option<ClickData>, clients: seq<WindowClient>,
                             canOpenWindow: bool, now: nat, net: Network) returns (outcome: ClickOutcome)
    modifies net
    ensures action == "taken" && data.None? ==> outcome == Failed && net.log == old(net.log)
    ensures action == "taken" && data.Some? ==>
      outcome == MedicineLogged
      && OneFetch(old(net.log), net.log,
                  Sent("POST", MedicineLogPath, JsonHeaders, Some(MedicineLogJson(data.value.medicine, now))))
    ensures action != "taken" ==>
      outcome.Chose? && net.log == old(net.log)
      && ChoiceFor(clients, ClickTarget(action, data).value, canOpenWindow, outcome.choice)
    ensures outcome.Chose? && outcome.choice.Focus? ==> outcome.choice.index < |clients|
    ensures action == "confirm" && outcome.Chose? && outcome.choice.OpenWindow? ==>
      outcome.choice.url == AppShellPath + "#appointments"
  {
    var target := ClickTarget(action, data);
    if target.None? {
      if data.None? {
        return Failed;
      }
      var _ := net.Fetch(Sent("POST", MedicineLogPath, JsonHeaders, Some(MedicineLogJson(data.value.medicine, now))));
      return MedicineLogged;
    }
    var choice := ChooseWindow(clients, target.value, canOpenWindow);
    outcome := Chose(choice);
  }
}

=== FILE: outbox.dfy ===
/**
 * The `syncQueue` object store of the `NabhaHealthOffline` database: an auto-increment
 * table of `{id, tag, data, timestamp}` rows holding mutations to replay, and the three
 * queue functions storeForBackgroundSync, getStoredData and removeStoredData.
 */
module Outbox {
  import opened Http

  const BookingTag: string := "appointment-booking"
  const AlertTag: string := "emergency-alert"
  const SymptomTag: string := "symptom-analysis"

  /** The periodic sync tag. */
  const DataSyncTag: string := "data-sync"

  /** The `data` object of a queued mutation: the request to replay and when it was made. */
  datatype SyncData = SyncData(
    url: string,
    verb: string,
    headers: Option<map<string, string>>,
    body: string,
    timestamp: nat,
    priority: Option<string>)

  /** One stored row; `id` is assigned by the store's key generator. */
  datatype Row = Row(id: nat, tag: string, data: SyncData, storedAt: nat)

  ghost predicate IdsAscending(rows: seq<Row>)
  {
    forall i, j :: 0 <= i < j < |rows| ==> rows[i].id < rows[j].id
  }

  /** The rows left after `store.delete(id)`. */
  function WithoutId(rows: seq<Row>, id: nat): (r: seq<Row>)
    ensures forall x :: x in r ==> x in rows
    ensures IdsAscending(rows) ==> IdsAscending(r)
    decreases |rows|
  {
    if rows == [] then []
    else if rows[0].id == id then WithoutId(rows[1..], id)
    else
      var rest := WithoutId(rows[1..], id);
      assert IdsAscending(rows) ==> forall x :: x in rows[1..] ==> rows[0].id < x.id by {
        if IdsAscending(rows) {
          forall x | x in rows[1..] ensures rows[0].id < x.id {
            var k :| 0 <= k < |rows[1..]| && rows[1..][k] == x;
            assert rows[k + 1] == x;
          }
        }
      }
      [rows[0]] + rest
  }

  /** Deleting the id of the row at `i` removes exactly that row when ids are unique. */
  lemma {:induction false} WithoutIdAt(rows: seq<Row>, i: nat)
    requires IdsAscending(rows) && i < |rows|
    ensures WithoutId(rows, rows[i].id) == rows[..i] + rows[i + 1..]
    decreases |rows|
  {
    if i == 0 {
      WithoutAbsentId(rows[1..], rows[0].id);
    } else {
      WithoutIdAt(rows[1..], i - 1);
      assert rows[1..][..i - 1] == rows[1..i];
      assert rows[1..][i..] == rows[i + 1..];
      assert rows[..i] == [rows[0]] + rows[1..i];
    }
  }

  lemma {:induction false} WithoutAbsentId(rows: seq<Row>, id: nat)
    requires forall x :: x in rows ==> x.id != id
    ensures WithoutId(rows, id) == rows
    decreases |rows|
  {
    if rows != [] {
      WithoutAbsentId(rows[1..], id);
      assert rows == [rows[0]] + rows[1..];
    }
  }

  /** The IndexedDB object store: rows in key order and the key generator's next value. */
  class SyncQueue {
    var rows: seq<Row>
    var nextId: nat

    ghost predicate Valid()
      reads this
    {
      IdsAscending(rows) && forall x :: x in rows ==> x.id < nextId
    }

    constructor ()
      ensures Valid() && rows == [] && nextId == 1
    {
      rows, nextId := [], 1;
    }

    /** `store.add(row)` with an auto-incremented key. */
    method Add(tag: string, data: SyncData, now: nat) returns (id: nat)
      requires Valid()
      modifies this
      ensures Valid()
      ensures id == old(nextId) && nextId == id + 1
      ensures rows == old(rows) + [Row(id, tag, data, now)]
    {
      id := nextId;
      rows := rows + [Row(id, tag, data, now)];
      nextId := nextId + 1;
    }

    /** `store.getAll()`: every row, in key order. */
    method GetAll() returns (all: seq<Row>)
      ensures all == rows
    {
      all := rows;
    }

    /** `store.delete(id)`. */
    method Delete(id: nat)
      requires Valid()
      modifies this
      ensures Valid() && nextId == old(nextId)
      ensures rows == WithoutId(old(rows), id)
    {
      rows := WithoutId(rows, id);
    }
  }

  /** storeForBackgroundSync: append a row for `tag`. */
  method StoreForBackgroundSync(q: SyncQueue, tag: string, data: SyncData, now: nat)
    requires q.Valid()
    modifies q
    ensures q.Valid() && q.nextId == old(q.nextId) + 1
    ensures q.rows == old(q.rows) + [Row(old(q.nextId), tag, data, now)]
  {
    var _ := q.Add(tag, data, now);
  }

  /** getStoredData: the `data` of the rows tagged `tag`, in store order. */
  function GetStoredData(rows: seq<Row>, tag: string): seq<SyncData>
    decreases |rows|
  {
    if rows == [] then []
    else (if rows[0].tag == tag then [rows[0].data] else []) + GetStoredData(rows[1..], tag)
  }

  /** Listing distributes over concatenation: the result follows store order. */
  lemma {:induction false} GetStoredDataAppend(a: seq<Row>, b: seq<Row>, tag: string)
    ensures GetStoredData(a + b, tag) == GetStoredData(a, tag) + GetStoredData(b, tag)
    decreases |a|
  {
    if a != [] {
      GetStoredDataAppend(a[1..], b, tag);
      var head := if a[0].tag == tag then [a[0].data] else [];
      assert (a + b)[0] == a[0];
      assert (a + b)[1..] == a[1..] + b;
      assert GetStoredData(a + b, tag) == head + GetStoredData(a[1..] + b, tag);
      assert GetStoredData(a, tag) == head + GetStoredData(a[1..], tag);
    } else {
      assert a + b == b;
    }
  }

  /** Exactly the data of the rows with that tag are listed. */
  lemma {:induction false} GetStoredDataMembers(rows: seq<Row>, tag: string, d: SyncData)
    ensures d in GetStoredData(rows, tag) <==>
      exists i :: 0 <= i < |rows| && rows[i].tag == tag && rows[i].data == d
    decreases |rows|
  {
    if rows != [] {
      GetStoredDataMembers(rows[1..], tag, d);
      if d in GetStoredData(rows[1..], tag) {
        var i :| 0 <= i < |rows[1..]| && rows[1..][i].tag == tag && rows[1..][i].data == d;
        assert rows[i + 1].tag == tag && rows[i + 1].data == d;
      }
      if exists i :: 0 <= i < |rows| && rows[i].tag == tag && rows[i].data == d {
        var i :| 0 <= i < |rows| && rows[i].tag == tag && rows[i].data == d;
        if i > 0 {
          assert rows[1..][i - 1] == rows[i];
        }
      }
    }
  }

  /** Storing then listing the same tag yields the old list plus the new data; other tags are unaffected. */
  lemma StoreThenList(rows: seq<Row>, row: Row, tag: string)
    ensures GetStoredData(rows + [row], tag) ==
      GetStoredData(rows, tag) + (if row.tag == tag then [row.data] else [])
  {
    GetStoredDataAppend(rows, [row], tag);
  }

  predicate Matches(row: Row, tag: string, timestamp: nat)
  {
    row.tag == tag && row.data.timestamp == timestamp
  }

  /** `allData.find(...)`: the position of the first row with that tag and `data.timestamp`. */
  function FindMatch(rows: seq<Row>, tag: string, timestamp: nat): (r: Option<nat>)
    ensures r.Some? ==> r.value < |rows| && Matches(rows[r.value], tag, timestamp)
    ensures r.Some? ==> forall j :: 0 <= j < r.value ==> !Matches(rows[j], tag, timestamp)
    ensures r.None? ==> forall j :: 0 <= j < |rows| ==> !Matches(rows[j], tag, timestamp)
    decreases |rows|
  {
    if rows == [] then None
    else if Matches(rows[0], tag, timestamp) then Some(0)
    else
      match FindMatch(rows[1..], tag, timestamp)
      case Some(i) => Some(i + 1)
      case None => None
  }

  /** The rows after removeStoredData(tag, timestamp): the first match is dropped, if there is one. */
  function AfterRemoval(rows: seq<Row>, tag: string, timestamp: nat): seq<Row>
  {
    match FindMatch(rows, tag, timestamp)
    case None => rows
    case Some(i) => rows[..i] + rows[i + 1..]
  }

  /**
   * removeStoredData deletes at most one row, the first whose tag and timestamp match;
   * with no match it is a no-op; every other row stays, in order, and the listing of
   * every other tag is unchanged.
   */
  lemma {:induction false} RemovalDeletesFirstMatchOnly(rows: seq<Row>, tag: string, timestamp: nat)
    ensures FindMatch(rows, tag, timestamp).None? ==> AfterRemoval(rows, tag, timestamp) == rows
    ensures FindMatch(rows, tag, timestamp).Some? ==>
      var i := FindMatch(rows, tag, timestamp).value;
      |AfterRemoval(rows, tag, timestamp)| == |rows| - 1
      && (forall j :: 0 <= j < i ==> AfterRemoval(rows, tag, timestamp)[j] == rows[j])
      && (forall j :: i < j < |rows| ==> AfterRemoval(rows, tag, timestamp)[j - 1] == rows[j])
    ensures forall t :: t != tag ==> GetStoredData(AfterRemoval(rows, tag, timestamp), t) == GetStoredData(rows, t)
  {
    match FindMatch(rows, tag, timestamp)
    case None =>
    case Some(i) =>
      assert rows == rows[..i] + [rows[i]] + rows[i + 1..];
      forall t | t != tag
        ensures GetStoredData(AfterRemoval(rows, tag, timestamp), t) == GetStoredData(rows, t)
      {
        GetStoredDataAppend(rows[..i], rows[i + 1..], t);
        GetStoredDataAppend(rows[..i] + [rows[i]], rows[i + 1..], t);
        GetStoredDataAppend(rows[..i], [rows[i]], t);
      }
  }

  /** removeStoredData: delete the first row whose tag and `data.timestamp` match, by its id. */
  method RemoveStoredData(q: SyncQueue, tag: string, timestamp: nat)
    requires q.Valid()
    modifies q
    ensures q.Valid() && q.nextId == old(q.nextId)
    ensures q.rows == AfterRemoval(old(q.rows), tag, timestamp)
  {
    var all := q.GetAll();
    var found := FindMatch(all, tag, timestamp);
    if found.Some? {
      WithoutIdAt(all, found.value);
      q.Delete(all[found.value].id);
    }
  }
}

=== FILE: platform.dfy ===
/**
 * The browser services the offline layer talks to, reduced to the state it observes:
 * the network (a log of every exchange, each result chosen by the environment), the
 * connected client sessions (a log of broadcast messages) and the service-worker
 * registration (background-sync and periodic-sync registrations).
 */
module Platform {
  import opened Http

  datatype Exchange = Exchange(sent: Sent, result: FetchResult)

  /** The results of a run of exchanges, in order. */
  function Results(exchanges: seq<Exchange>): seq<FetchResult>
  {
    seq(|exchanges|, i requires 0 <= i < |exchanges| => exchanges[i].result)
  }

  /** `after` is `before` plus exactly one exchange, which sent `s`. */
  ghost predicate OneFetch(before: seq<Exchange>, after: seq<Exchange>, s: Sent)
  {
    |after| == |before| + 1 && after[..|before|] == before && after[|before|].sent == s
  }

  function LastResult(log: seq<Exchange>): FetchResult
    requires |log| > 0
  {
    log[|log| - 1].result
  }

  /** `fetch`: every call is recorded with the result the environment chose for it. */
  class Network {
    var log: seq<Exchange>

    constructor ()
      ensures log == []
    {
      log := [];
    }

    method Fetch(s: Sent) returns (r: FetchResult)
      modifies this
      ensures log == old(log) + [Exchange(s, r)]
    {
      r :| true;
      log := log + [Exchange(s, r)];
    }
  }

  /** Messages posted to every open client session. */
  datatype Message =
    | AppointmentSynced(data: Body)
    | EmergencyAlertSynced(data: Body)
    | Activated(version: string)

  /** `self.clients`: what has been posted to the sessions connected at the time. */
  class Clients {
    var posted: seq<Message>

    constructor ()
      ensures posted == []
    {
      posted := [];
    }

    /** broadcastMessage: post `m` to every connected session. */
    method Broadcast(m: Message)
      modifies this
      ensures posted == old(posted) + [m]
    {
      posted := posted + [m];
    }
  }

  /** `self.registration`: which sync triggers are armed. */
  class Registration {
    const backgroundSyncSupported: bool
    const periodicSyncSupported: bool
    var syncTags: set<string>
    var periodic: map<string, nat>

    constructor (backgroundSync: bool, periodicSync: bool)
      ensures backgroundSyncSupported == backgroundSync && periodicSyncSupported == periodicSync
      ensures syncTags == {} && periodic == map[]
    {
      backgroundSyncSupported, periodicSyncSupported := backgroundSync, periodicSync;
      syncTags, periodic := {}, map[];
    }

    /**
     * `registration.sync.register(tag)`; where the platform has no background sync,
     * `registration.sync` is undefined and the call throws (`ok` is false). Where it has
     * one, the browser may still refuse (`ok` false), for instance without the permission.
     */
    method RegisterSync(tag: string) returns (ok: bool)
      modifies this
      ensures ok ==> backgroundSyncSupported
      ensures syncTags == if ok then old(syncTags) + {tag} else old(syncTags)
      ensures periodic == old(periodic)
    {
      ok :| ok ==> backgroundSyncSupported;
      if ok {
        syncTags := syncTags + {tag};
      }
    }

    /**
     * `registration.periodicSync.register(tag, {minInterval})`, on a platform that has it;
     * the browser may still refuse (`ok` false), for instance without the permission.
     */
    method RegisterPeriodic(tag: string, minInterval: nat) returns (ok: bool)
      requires periodicSyncSupported
      modifies this
      ensures periodic == if ok then old(periodic)[tag := minInterval] else old(periodic)
      ensures syncTags == old(syncTags)
    {
      ok :| true;
      if ok {
        periodic := periodic[tag := minInterval];
      }
    }
  }
}

=== FILE: replay.dfy ===
/**
 * The replay engine: the sync listener and the three drains syncAppointments,
 * syncEmergencyAlerts and syncSymptomAnalyses, plus the periodic data sync. Each drain
 * lists the rows of its tag once (a snapshot), replays them one after another, removes a
 * row only when its replay is delivered, and goes on after a failure.
 */
module Replay {
  import opened Http
  import opened Platform
  import opened Outbox
  import opened CacheStore
  import opened Strategies

  datatype ReplayKind = Appointments | EmergencyAlerts | SymptomAnalyses

  function TagOf(kind: ReplayKind): string
  {
    match kind
    case Appointments => BookingTag
    case EmergencyAlerts => AlertTag
    case SymptomAnalyses => SymptomTag
  }

  /** The request a drain sends for a queued item. */
  function ReplayRequest(kind: ReplayKind, d: SyncData): Sent
  {
    match kind
    case Appointments => Sent(d.verb, d.url, GetOr(d.headers, JsonHeaders), Some(d.body))
    case EmergencyAlerts => Sent(d.verb, d.url, JsonHeaders, Some(d.body))
    case SymptomAnalyses => Sent("POST", "/api/analytics/symptoms", JsonHeaders, Some(d.body))
  }

  /**
   * When a replay counts as delivered and its row is removed: an ok response for
   * appointments and alerts; any response at all for symptom analyses.
   */
  predicate Delivered(kind: ReplayKind, f: FetchResult)
  {
    match kind
    case SymptomAnalyses => f.Fetched?
    case _ => Succeeded(f)
  }

  /** The broadcast that follows a delivered replay, if the drain sends one. */
  function Notice(kind: ReplayKind, f: FetchResult): seq<Message>
  {
    if !Delivered(kind, f) then []
    else match kind
      case Appointments => [AppointmentSynced(f.response.body)]
      case EmergencyAlerts => [EmergencyAlertSynced(f.response.body)]
      case SymptomAnalyses => []
  }

  /** The rows after replaying `snap` in order with these results. */
  function Remaining(kind: ReplayKind, rows: seq<Row>, snap: seq<SyncData>, results: seq<FetchResult>): seq<Row>
    requires |snap| == |results|
    decreases |snap|
  {
    if |snap| == 0 then rows
    else
      var n := |snap| - 1;
      var prior := Remaining(kind, rows, snap[..n], results[..n]);
      if Delivered(kind, results[n]) then AfterRemoval(prior, TagOf(kind), snap[n].timestamp) else prior
  }

  /** The messages a drain broadcasts, in replay order. */
  function Notices(kind: ReplayKind, results: seq<FetchResult>): seq<Message>
    decreases |results|
  {
    if |results| == 0 then []
    else Notices(kind, results[..|results| - 1]) + Notice(kind, results[|results| - 1])
  }

  /** The snapshot items whose replay was not delivered, in order. */
  function Undelivered<T>(kind: ReplayKind, snap: seq<T>, results: seq<FetchResult>): seq<T>
    requires |snap| == |results|
    decreases |snap|
  {
    if |snap| == 0 then []
    else
      var n := |snap| - 1;
      Undelivered(kind, snap[..n], results[..n]) + (if Delivered(kind, results[n]) then [] else [snap[n]])
  }

  /** One drain of `kind` took the queue and logs from the first state to the second. */
  ghost predicate Drained(kind: ReplayKind, rows0: seq<Row>, rows1: seq<Row>,
                          log0: seq<Exchange>, log1: seq<Exchange>,
                          posted0: seq<Message>, posted1: seq<Message>)
  {
    var snap := GetStoredData(rows0, TagOf(kind));
    |log1| == |log0| + |snap| && log1[..|log0|] == log0
    && (forall i :: 0 <= i < |snap| ==> log1[|log0| + i].sent == ReplayRequest(kind, snap[i]))
    && rows1 == Remaining(kind, rows0, snap, Results(log1[|log0|..]))
    && posted1 == posted0 + Notices(kind, Results(log1[|log0|..]))
  }

  /**
   * One replay: send the item, and on delivery remove its row and broadcast the answer.
   * The ghost parameters carry the drain so far, which the replay extends by this item.
   */
  method ReplayOne(kind: ReplayKind, d: SyncData, q: SyncQueue, net: Network, clients: Clients,
                   ghost done: seq<SyncData>, ghost rows0: seq<Row>, ghost log0: seq<Exchange>,
                   ghost replayed: seq<Exchange>, ghost results: seq<FetchResult>, ghost posted0: seq<Message>)
    returns (result: FetchResult)
    requires q.Valid()
    requires DrainedUpTo(kind, done, rows0, q.rows, replayed, results, posted0, clients.posted)
    requires net.log == log0 + replayed
    modifies q, net, clients
    ensures q.Valid()
    ensures net.log == old(net.log) + [Exchange(ReplayRequest(kind, d), result)]
    ensures q.rows == if Delivered(kind, result) then AfterRemoval(old(q.rows), TagOf(kind), d.timestamp) else old(q.rows)
    ensures clients.posted == old(clients.posted) + Notice(kind, result)
    ensures DrainedUpTo(kind, done + [d], rows0, q.rows, replayed + [Exchange(ReplayRequest(kind, d), result)],
                        results + [result], posted0, clients.posted)
    ensures net.log == log0 + (replayed + [Exchange(ReplayRequest(kind, d), result)])
  {
    result := net.Fetch(ReplayRequest(kind, d));
    if Delivered(kind, result) {
      RemoveStoredData(q, TagOf(kind), d.timestamp);
      match kind {
        case Appointments => clients.Broadcast(AppointmentSynced(result.response.body));
        case EmergencyAlerts => clients.Broadcast(EmergencyAlertSynced(result.response.body));
        case SymptomAnalyses =>
      }
    }
    DrainedUpToStep(kind, done, d, rows0, old(q.rows), q.rows, replayed, results, result, posted0, old(clients.posted), clients.posted);
  }

  lemma RemainingSnoc(kind: ReplayKind, rows: seq<Row>, snap: seq<SyncData>, results: seq<FetchResult>,
                      d: SyncData, f: FetchResult)
    requires |snap| == |results|
    ensures Remaining(kind, rows, snap + [d], results + [f]) ==
      var prior := Remaining(kind, rows, snap, results);
      if Delivered(kind, f) then AfterRemoval(prior, TagOf(kind), d.timestamp) else prior
  {
    assert (snap + [d])[..|snap|] == snap;
    assert (results + [f])[..|results|] == results;
  }

  lemma NoticesSnoc(kind: ReplayKind, results: seq<FetchResult>, f: FetchResult)
    ensures Notices(kind, results + [f]) == Notices(kind, results) + Notice(kind, f)
  {
    assert (results + [f])[..|results|] == results;
  }

  /**
   * A drain: list the tag's items once, replay each, and on delivery remove the first row
   * with that tag and timestamp and broadcast the response; a failed replay is skipped.
   */
  method Drain(kind: ReplayKind, q: SyncQueue, net: Network, clients: Clients)
    requires q.Valid()
    modifies q, net, clients
    ensures q.Valid()
    ensures Drained(kind, old(q.rows), q.rows, old(net.log), net.log, old(clients.posted), clients.posted)
  {
    var all := q.GetAll();
    var snap := GetStoredData(all, TagOf(kind));
    ghost var rows0, log0, posted0 := q.rows, net.log, clients.posted;
    ghost var replayed, results := ReplayAll(kind, snap, q, net, clients);
    DrainLog(kind, rows0, q.rows, log0, replayed, posted0, clients.posted, snap, results);
  }

  /** The loop of a drain: replay every listed item in order, one at a time. */
  method ReplayAll(kind: ReplayKind, snap: seq<SyncData>, q: SyncQueue, net: Network, clients: Clients)
    returns (ghost replayed: seq<Exchange>, ghost results: seq<FetchResult>)
    requires q.Valid()
    modifies q, net, clients
    ensures q.Valid()
    ensures DrainedUpTo(kind, snap, old(q.rows), q.rows, replayed, results, old(clients.posted), clients.posted)
    ensures net.log == old(net.log) + replayed
  {
    ghost var rows0, log0, posted0 := q.rows, net.log, clients.posted;
    results, replayed := [], [];
    for i := 0 to |snap|
      invariant q.Valid()
      invariant DrainedUpTo(kind, snap[..i], rows0, q.rows, replayed, results, posted0, clients.posted)
      invariant net.log == log0 + replayed
    {
      var result := ReplayOne(kind, snap[i], q, net, clients, snap[..i], rows0, log0, replayed, results, posted0);
      assert snap[..i] + [snap[i]] == snap[..i + 1];
      results := results + [result];
      replayed := replayed + [Exchange(ReplayRequest(kind, snap[i]), result)];
    }
    assert snap[..|snap|] == snap;
  }

  ghost predicate DrainedUpTo(kind: ReplayKind, done: seq<SyncData>, rows0: seq<Row>, rows: seq<Row>,
                              replayed: seq<Exchange>, results: seq<FetchResult>, posted0: seq<Message>, posted: seq<Message>)
  {
    |results| == |done| && |replayed| == |done|
    && (forall k :: 0 <= k < |done| ==> replayed[k] == Exchange(ReplayRequest(kind, done[k]), results[k]))
    && rows == Remaining(kind, rows0, done, results)
    && posted == posted0 + Notices(kind, results)
  }

  lemma DrainedUpToStep(kind: ReplayKind, done: seq<SyncData>, d: SyncData, rows0: seq<Row>, rows: seq<Row>, rows1: seq<Row>,
                        replayed: seq<Exchange>, results: seq<FetchResult>, result: FetchResult,
                        posted0: seq<Message>, posted: seq<Message>, posted1: seq<Message>)
    requires DrainedUpTo(kind, done, rows0, rows, replayed, results, posted0, posted)
    requires rows1 == if Delivered(kind, result) then AfterRemoval(rows, TagOf(kind), d.timestamp) else rows
    requires posted1 == posted + Notice(kind, result)
    ensures DrainedUpTo(kind, done + [d], rows0, rows1, replayed + [Exchange(ReplayRequest(kind, d), result)],
                        results + [result], posted0, posted1)
  {
    RemainingSnoc(kind, rows0, done, results, d, result);
    NoticesSnoc(kind, results, result);
  }

  lemma DrainLog(kind: ReplayKind, rows0: seq<Row>, rows1: seq<Row>, log0: seq<Exchange>, replayed: seq<Exchange>,
                 posted0: seq<Message>, posted1: seq<Message>, snap: seq<SyncData>, results: seq<FetchResult>)
    requires snap == GetStoredData(rows0, TagOf(kind))
    requires DrainedUpTo(kind, snap, rows0, rows1, replayed, results, posted0, posted1)
    ensures Drained(kind, rows0, rows1, log0, log0 + replayed, posted0, posted1)
  {
    assert (log0 + replayed)[|log0|..] == replayed;
    assert (log0 + replayed)[..|log0|] == log0;
    assert Results(replayed) == results;
  }

  /** syncAppointments: replay queued bookings; an ok reply removes the row and is broadcast. */
  method SyncAppointments(q: SyncQueue, net: Network, clients: Clients)
    requires q.Valid()
    modifies q, net, clients
    ensures q.Valid()
    ensures Drained(Appointments, old(q.rows), q.rows, old(net.log), net.log, old(clients.posted), clients.posted)
  {
    Drain(Appointments, q, net, clients);
  }

  /** syncEmergencyAlerts: replay queued alerts; an ok reply removes the row and is broadcast. */
  method SyncEmergencyAlerts(q: SyncQueue, net: Network, clients: Clients)
    requires q.Valid()
    modifies q, net, clients
    ensures q.Valid()
    ensures Drained(EmergencyAlerts, old(q.rows), q.rows, old(net.log), net.log, old(clients.posted), clients.posted)
  {
    Drain(EmergencyAlerts, q, net, clients);
  }

  /** syncSymptomAnalyses: post each queued analysis; any reply at all removes the row. */
  method SyncSymptomAnalyses(q: SyncQueue, net: Network, clients: Clients)
    requires q.Valid()
    modifies q, net, clients
    ensures q.Valid()
    ensures Drained(SymptomAnalyses, old(q.rows), q.rows, old(net.log), net.log, old(clients.posted), clients.posted)
  {
    Drain(SymptomAnalyses, q, net, clients);
  }

  /** The drain the sync listener runs for a tag; any other tag runs nothing. */
  function KindForTag(tag: string): (k: Option<ReplayKind>)
    ensures k.Some? <==> tag in {BookingTag, AlertTag, SymptomTag}
    ensures k.Some? ==> TagOf(k.value) == tag
  {
    if tag == BookingTag then Some(Appointments)
    else if tag == AlertTag then Some(EmergencyAlerts)
    else if tag == SymptomTag then Some(SymptomAnalyses)
    else None
  }

  /**
   * The sync listener: the drain of the fired tag. For any other tag the listener calls
   * a function that does not exist, so nothing is replayed and nothing changes.
   */
  method OnSync(tag: string, q: SyncQueue, net: Network, clients: Clients)
    requires q.Valid()
    modifies q, net, clients
    ensures q.Valid()
    ensures KindForTag(tag).None? ==>
      q.rows == old(q.rows) && net.log == old(net.log) && clients.posted == old(clients.posted)
    ensures KindForTag(tag).Some? ==>
      Drained(KindForTag(tag).value, old(q.rows), q.rows, old(net.log), net.log, old(clients.posted), clients.posted)
  {
    match KindForTag(tag) {
      case Some(kind) => Drain(kind, q, net, clients);
      case None =>
    }
  }

  // ----- What a drain does to the queue -----

  /** `ds` without its first item whose timestamp is `timestamp`. */
  function DropFirstTimestamp(ds: seq<SyncData>, timestamp: nat): seq<SyncData>
    decreases |ds|
  {
    if ds == [] then []
    else if ds[0].timestamp == timestamp then ds[1..]
    else [ds[0]] + DropFirstTimestamp(ds[1..], timestamp)
  }

  lemma {:induction false} AfterRemovalCons(rows: seq<Row>, tag: string, timestamp: nat)
    requires rows != [] && !Matches(rows[0], tag, timestamp)
    ensures AfterRemoval(rows, tag, timestamp) == [rows[0]] + AfterRemoval(rows[1..], tag, timestamp)
  {
    match FindMatch(rows[1..], tag, timestamp)
    case None =>
    case Some(i) =>
      assert FindMatch(rows, tag, timestamp) == Some(i + 1);
      assert rows[..i + 1] == [rows[0]] + rows[1..][..i];
      assert rows[i + 2..] == rows[1..][i + 1..];
  }

  /** On the listing of its tag, removeStoredData drops the first item with that timestamp. */
  lemma {:induction false} RemovalOnListing(rows: seq<Row>, tag: string, timestamp: nat)
    ensures GetStoredData(AfterRemoval(rows, tag, timestamp), tag) ==
      DropFirstTimestamp(GetStoredData(rows, tag), timestamp)
    decreases |rows|
  {
    if rows != [] {
      if Matches(rows[0], tag, timestamp) {
        assert AfterRemoval(rows, tag, timestamp) == rows[1..];
      } else {
        RemovalOnListing(rows[1..], tag, timestamp);
        RemovalOnListingStep(rows, tag, timestamp);
      }
    }
  }

  lemma RemovalOnListingStep(rows: seq<Row>, tag: string, timestamp: nat)
    requires rows != [] && !Matches(rows[0], tag, timestamp)
    requires GetStoredData(AfterRemoval(rows[1..], tag, timestamp), tag) ==
      DropFirstTimestamp(GetStoredData(rows[1..], tag), timestamp)
    ensures GetStoredData(AfterRemoval(rows, tag, timestamp), tag) ==
      DropFirstTimestamp(GetStoredData(rows, tag), timestamp)
  {
    AfterRemovalCons(rows, tag, timestamp);
    var rest := AfterRemoval(rows[1..], tag, timestamp);
    var tail := GetStoredData(rows[1..], tag);
    assert ([rows[0]] + rest)[0] == rows[0];
    assert ([rows[0]] + rest)[1..] == rest;
    if rows[0].tag == tag {
      var ds := [rows[0].data] + tail;
      assert ds[0] == rows[0].data && ds[1..] == tail;
      calc {
        GetStoredData(AfterRemoval(rows, tag, timestamp), tag);
        GetStoredData([rows[0]] + rest, tag);
        [rows[0].data] + GetStoredData(rest, tag);
        [ds[0]] + DropFirstTimestamp(ds[1..], timestamp);
        DropFirstTimestamp(ds, timestamp);
      }
      assert GetStoredData(rows, tag) == ds;
    } else {
      calc {
        GetStoredData(AfterRemoval(rows, tag, timestamp), tag);
        GetStoredData([rows[0]] + rest, tag);
        GetStoredData(rest, tag);
        DropFirstTimestamp(tail, timestamp);
      }
      assert GetStoredData(rows, tag) == [] + tail == tail;
    }
  }

  /** Dropping the first item with `x`'s timestamp from `a + [x] + b` removes `x` when `a` has none. */
  lemma {:induction false} DropFirstTimestampAt(a: seq<SyncData>, x: SyncData, b: seq<SyncData>)
    requires forall y :: y in a ==> y.timestamp != x.timestamp
    ensures DropFirstTimestamp(a + [x] + b, x.timestamp) == a + b
    decreases |a|
  {
    if a == [] {
      assert a + [x] + b == [x] + b;
      assert ([x] + b)[1..] == b;
    } else {
      DropFirstTimestampAt(a[1..], x, b);
      assert (a + [x] + b)[0] == a[0];
      assert (a + [x] + b)[1..] == a[1..] + [x] + b;
      assert a + b == [a[0]] + (a[1..] + b);
    }
  }

  lemma {:induction false} UndeliveredFromSnapshot<T>(kind: ReplayKind, snap: seq<T>, results: seq<FetchResult>)
    requires |snap| == |results|
    ensures forall y :: y in Undelivered(kind, snap, results) ==> y in snap
    decreases |snap|
  {
    if |snap| > 0 {
      var n := |snap| - 1;
      UndeliveredFromSnapshot(kind, snap[..n], results[..n]);
      assert forall y :: y in snap[..n] ==> y in snap;
    }
  }

  ghost predicate DistinctTimestamps(ds: seq<SyncData>)
  {
    forall i, j :: 0 <= i < j < |ds| ==> ds[i].timestamp != ds[j].timestamp
  }

  lemma {:induction false} DrainPrefix(kind: ReplayKind, rows: seq<Row>, snap: seq<SyncData>,
                                       results: seq<FetchResult>, n: nat)
    requires GetStoredData(rows, TagOf(kind)) == snap && |snap| == |results| && n <= |snap|
    requires DistinctTimestamps(snap)
    ensures ListedAfter(kind, rows, snap, results, n)
  {
    if n == 0 {
      assert snap[..0] == [] && snap[0..] == snap;
    } else {
      DrainPrefix(kind, rows, snap, results, n - 1);
      DrainPrefixStep(kind, rows, snap, results, n - 1);
    }
  }

  /**
   * After the first `n` replays the tag's listing holds the undelivered ones among them
   * followed by the items not yet replayed.
   */
  ghost predicate ListedAfter(kind: ReplayKind, rows: seq<Row>, snap: seq<SyncData>, results: seq<FetchResult>, n: nat)
    requires |snap| == |results| && n <= |snap|
  {
    GetStoredData(Remaining(kind, rows, snap[..n], results[..n]), TagOf(kind)) ==
      Undelivered(kind, snap[..n], results[..n]) + snap[n..]
  }

  lemma DrainPrefixStep(kind: ReplayKind, rows: seq<Row>, snap: seq<SyncData>, results: seq<FetchResult>, m: nat)
    requires |snap| == |results| && m < |snap| && DistinctTimestamps(snap)
    requires ListedAfter(kind, rows, snap, results, m)
    ensures ListedAfter(kind, rows, snap, results, m + 1)
  {
    var tag := TagOf(kind);
    var n := m + 1;
    var prior := Remaining(kind, rows, snap[..m], results[..m]);
    var kept := Undelivered(kind, snap[..m], results[..m]);
    assert snap[..n] == snap[..m] + [snap[m]];
    assert results[..n] == results[..m] + [results[m]];
    RemainingSnoc(kind, rows, snap[..m], results[..m], snap[m], results[m]);
    UndeliveredSnoc(kind, snap[..m], results[..m], snap[m], results[m]);
    assert snap[m..] == [snap[m]] + snap[n..];
    assert kept + snap[m..] == kept + [snap[m]] + snap[n..];
    if Delivered(kind, results[m]) {
      RemovalOnListing(prior, tag, snap[m].timestamp);
      KeptTimestampsDiffer(kind, snap, results, m);
      DropFirstTimestampAt(kept, snap[m], snap[n..]);
    }
  }

  lemma UndeliveredSnoc<T>(kind: ReplayKind, snap: seq<T>, results: seq<FetchResult>, d: T, f: FetchResult)
    requires |snap| == |results|
    ensures Undelivered(kind, snap + [d], results + [f]) ==
      Undelivered(kind, snap, results) + (if Delivered(kind, f) then [] else [d])
  {
    assert (snap + [d])[..|snap|] == snap;
    assert (results + [f])[..|results|] == results;
  }

  /** Nothing left undelivered before position `m` shares the timestamp of item `m`. */
  lemma KeptTimestampsDiffer(kind: ReplayKind, snap: seq<SyncData>, results: seq<FetchResult>, m: nat)
    requires |snap| == |results| && m < |snap| && DistinctTimestamps(snap)
    ensures forall y :: y in Undelivered(kind, snap[..m], results[..m]) ==> y.timestamp != snap[m].timestamp
  {
    UndeliveredFromSnapshot(kind, snap[..m], results[..m]);
    forall y | y in snap[..m] ensures y.timestamp != snap[m].timestamp {
      var k :| 0 <= k < m && snap[..m][k] == y;
      assert snap[k] == y;
    }
  }

  /**
   * When the queued items of a tag have distinct timestamps, a drain leaves queued exactly
   * the items whose replay was not delivered, in their original order.
   */
  lemma DrainKeepsExactlyUndelivered(kind: ReplayKind, rows: seq<Row>, results: seq<FetchResult>)
    requires |results| == |GetStoredData(rows, TagOf(kind))|
    requires DistinctTimestamps(GetStoredData(rows, TagOf(kind)))
    ensures var snap := GetStoredData(rows, TagOf(kind));
      GetStoredData(Remaining(kind, rows, snap, results), TagOf(kind)) == Undelivered(kind, snap, results)
  {
    var snap := GetStoredData(rows, TagOf(kind));
    DrainPrefix(kind, rows, snap, results, |snap|);
    assert snap[..|snap|] == snap && results[..|results|] == results && snap[|snap|..] == [];
  }

  /** A drain never touches the rows of any other tag. */
  lemma {:induction false} DrainKeepsOtherTags(kind: ReplayKind, rows: seq<Row>, snap: seq<SyncData>,
                                               results: seq<FetchResult>, t: string)
    requires |snap| == |results| && t != TagOf(kind)
    ensures GetStoredData(Remaining(kind, rows, snap, results), t) == GetStoredData(rows, t)
    decreases |snap|
  {
    if |snap| > 0 {
      var n := |snap| - 1;
      DrainKeepsOtherTags(kind, rows, snap[..n], results[..n], t);
      RemovalDeletesFirstMatchOnly(Remaining(kind, rows, snap[..n], results[..n]), TagOf(kind), snap[n].timestamp);
    }
  }

  /** A drain in which nothing was delivered leaves the queue exactly as it was and broadcasts nothing. */
  lemma {:induction false} NothingDeliveredNothingRemoved(kind: ReplayKind, rows: seq<Row>, snap: seq<SyncData>,
                                                          results: seq<FetchResult>)
    requires |snap| == |results|
    requires forall i :: 0 <= i < |results| ==> !Delivered(kind, results[i])
    ensures Remaining(kind, rows, snap, results) == rows
    ensures Notices(kind, results) == []
    decreases |snap|
  {
    if |snap| > 0 {
      var n := |snap| - 1;
      NothingDeliveredNothingRemoved(kind, rows, snap[..n], results[..n]);
    }
  }

  /** A drain only removes rows: everything left was queued before. */
  lemma {:induction false} DrainOnlyRemoves(kind: ReplayKind, rows: seq<Row>, snap: seq<SyncData>,
                                            results: seq<FetchResult>)
    requires |snap| == |results|
    ensures forall x :: x in Remaining(kind, rows, snap, results) ==> x in rows
    decreases |snap|
  {
    if |snap| > 0 {
      var n := |snap| - 1;
      DrainOnlyRemoves(kind, rows, snap[..n], results[..n]);
      var prior := Remaining(kind, rows, snap[..n], results[..n]);
      match FindMatch(prior, TagOf(kind), snap[n].timestamp)
      case None =>
      case Some(i) =>
        assert forall x :: x in prior[..i] + prior[i + 1..] ==> x in prior;
    }
  }

  /** The queue, the network log and the broadcasts at one point of a run. */
  datatype Checkpoint = Checkpoint(rows: seq<Row>, log: seq<Exchange>, posted: seq<Message>)

  /** One drain of `kind` led from checkpoint `c0` to checkpoint `c1`. */
  ghost predicate DrainedBetween(kind: ReplayKind, c0: Checkpoint, c1: Checkpoint)
  {
    Drained(kind, c0.rows, c1.rows, c0.log, c1.log, c0.posted, c1.posted)
  }

  /**
   * One run of performDataSync, from `start` with partitions `p0` to rows `rows`, log
   * `log`, broadcasts `posted` and partitions `p1`: the booking drain to `afterBookings`,
   * the alert drain to `afterAlerts`, the analysis drain to `afterAnalyses`, then the
   * refresh of the API partition, which adds the last exchanges to the log.
   */
  ghost predicate DataSynced(start: Checkpoint, afterBookings: Checkpoint, afterAlerts: Checkpoint,
                             afterAnalyses: Checkpoint, rows: seq<Row>, log: seq<Exchange>, posted: seq<Message>,
                             p0: map<string, Partition>, p1: map<string, Partition>, origin: string)
  {
    DrainedBetween(Appointments, start, afterBookings)
    && DrainedBetween(EmergencyAlerts, afterBookings, afterAlerts)
    && DrainedBetween(SymptomAnalyses, afterAlerts, afterAnalyses)
    && rows == afterAnalyses.rows && posted == afterAnalyses.posted
    && ApiRefreshed(p0, p1, afterAnalyses.log, log, origin)
  }

  /**
   * performDataSync: the three drains, then the refresh of the API partition; the ghost
   * results are the checkpoints between the steps. Only the API partition changes, queued
   * rows of other tags stay, and nothing is added to the queue.
   */
  method PerformDataSync(q: SyncQueue, net: Network, clients: Clients, caches: CacheStorage, origin: string)
    returns (ghost afterBookings: Checkpoint, ghost afterAlerts: Checkpoint, ghost afterAnalyses: Checkpoint)
    requires q.Valid()
    modifies q, net, clients, caches
    ensures q.Valid()
    ensures DataSynced(Checkpoint(old(q.rows), old(net.log), old(clients.posted)), afterBookings, afterAlerts,
                       afterAnalyses, q.rows, net.log, clients.posted, old(caches.partitions), caches.partitions, origin)
    ensures forall x :: x in q.rows ==> x in old(q.rows)
    ensures forall t :: t !in {BookingTag, AlertTag, SymptomTag} ==> GetStoredData(q.rows, t) == GetStoredData(old(q.rows), t)
    ensures OnlyChanged(old(caches.partitions), caches.partitions, ApiCache)
  {
    ghost var start := Checkpoint(q.rows, net.log, clients.posted);
    SyncAppointments(q, net, clients);
    afterBookings := Checkpoint(q.rows, net.log, clients.posted);
    SyncEmergencyAlerts(q, net, clients);
    afterAlerts := Checkpoint(q.rows, net.log, clients.posted);
    SyncSymptomAnalyses(q, net, clients);
    afterAnalyses := Checkpoint(q.rows, net.log, clients.posted);
    UpdateApiCache(caches, net, origin);
    DataSyncOnlyRemoves(start, afterBookings, afterAlerts, afterAnalyses, q.rows, net.log, clients.posted,
                        old(caches.partitions), caches.partitions, origin);
  }

  /**
   * A periodic data sync never adds a row, leaves the listings of every tag other than the
   * three queue tags as they were, and changes no partition other than the API one.
   */
  lemma DataSyncOnlyRemoves(start: Checkpoint, afterBookings: Checkpoint, afterAlerts: Checkpoint,
                            afterAnalyses: Checkpoint, rows: seq<Row>, log: seq<Exchange>, posted: seq<Message>,
                            p0: map<string, Partition>, p1: map<string, Partition>, origin: string)
    requires DataSynced(start, afterBookings, afterAlerts, afterAnalyses, rows, log, posted, p0, p1, origin)
    ensures forall x :: x in rows ==> x in start.rows
    ensures forall t :: t !in {BookingTag, AlertTag, SymptomTag} ==> GetStoredData(rows, t) == GetStoredData(start.rows, t)
    ensures OnlyChanged(p0, p1, ApiCache)
  {
    DrainStep(Appointments, start, afterBookings);
    DrainStep(EmergencyAlerts, afterBookings, afterAlerts);
    DrainStep(SymptomAnalyses, afterAlerts, afterAnalyses);
  }

  /** What PerformDataSync needs from one drain step, whatever the results were. */
  lemma DrainStep(kind: ReplayKind, c0: Checkpoint, c1: Checkpoint)
    requires DrainedBetween(kind, c0, c1)
    ensures forall x :: x in c1.rows ==> x in c0.rows
    ensures forall t :: t != TagOf(kind) ==> GetStoredData(c1.rows, t) == GetStoredData(c0.rows, t)
  {
    var snap := GetStoredData(c0.rows, TagOf(kind));
    var results := Results(c1.log[|c0.log|..]);
    DrainOnlyRemoves(kind, c0.rows, snap, results);
    forall t | t != TagOf(kind) ensures GetStoredData(c1.rows, t) == GetStoredData(c0.rows, t) {
      DrainKeepsOtherTags(kind, c0.rows, snap, results, t);
    }
  }

  /**
   * The periodicsync listener: `data-sync` runs performDataSync, whose checkpoints are the
   * ghost results; any other tag does nothing.
   */
  method OnPeriodicSync(tag: string, q: SyncQueue, net: Network, clients: Clients, caches: CacheStorage, origin: string)
    returns (ghost afterBookings: Checkpoint, ghost afterAlerts: Checkpoint, ghost afterAnalyses: Checkpoint)
    requires q.Valid()
    modifies q, net, clients, caches
    ensures q.Valid()
    ensures tag == DataSyncTag ==>
      DataSynced(Checkpoint(old(q.rows), old(net.log), old(clients.posted)), afterBookings, afterAlerts,
                 afterAnalyses, q.rows, net.log, clients.posted, old(caches.partitions), caches.partitions, origin)
    ensures tag != DataSyncTag ==>
      q.rows == old(q.rows) && net.log == old(net.log) && clients.posted == old(clients.posted)
      && caches.partitions == old(caches.partitions)
  {
    afterBookings := Checkpoint(q.rows, net.log, clients.posted);
    afterAlerts, afterAnalyses := afterBookings, afterBookings;
    if tag == DataSyncTag {
      afterBookings, afterAlerts, afterAnalyses := PerformDataSync(q, net, clients, caches, origin);
    }
  }
}

=== FILE: replay_by_id.dfy ===
/**
 * Replay removal by timestamp, as the drains do it, against removal by row id. Two queued
 * items of one tag can carry the same `timestamp` (two requests queued within the same
 * millisecond). A drain then removes the first row with that timestamp, which need not be
 * the row it just replayed. Removing the replayed row by its id leaves queued exactly the
 * rows whose replay failed, whatever their timestamps.
 */
module ReplayById {
  import opened Http
  import opened Outbox
  import opened Replay

  // ----- As written: a delivered replay can remove the row of a failed one -----

  /**
   * Two bookings queued in the same millisecond. The replay of the first fails, the
   * replay of the second is delivered. The drain removes the first (failed) booking and
   * keeps the delivered one, which will be sent again at the next sync.
   */
  lemma SameTimestampRemovesWrongRow()
    ensures var first := SyncData("/api/appointments", "POST", None, "{\"slot\":1}", 7, None);
      var second := SyncData("/api/appointments", "POST", None, "{\"slot\":2}", 7, None);
      var rows := [Row(1, BookingTag, first, 7), Row(2, BookingTag, second, 7)];
      var results := [NetworkError, Fetched(Response(201, Content("{}"), false))];
      GetStoredData(rows, BookingTag) == [first, second]
      && Undelivered(Appointments, [first, second], results) == [first]
      && GetStoredData(Remaining(Appointments, rows, [first, second], results), BookingTag) == [second]
  {
    var first := SyncData("/api/appointments", "POST", None, "{\"slot\":1}", 7, None);
    var second := SyncData("/api/appointments", "POST", None, "{\"slot\":2}", 7, None);
    var rows := [Row(1, BookingTag, first, 7), Row(2, BookingTag, second, 7)];
    var results := [NetworkError, Fetched(Response(201, Content("{}"), false))];
    var snap := [first, second];
    assert GetStoredData(rows[1..], BookingTag) == [second];
    assert snap[..1] == [first] && results[..1] == [NetworkError];
    assert [first][..0] == [] && [NetworkError][..0] == [];
    assert Remaining(Appointments, rows, snap[..1], results[..1]) == rows;
    assert Undelivered(Appointments, snap[..1], results[..1]) == [first];
    assert FindMatch(rows, BookingTag, 7) == Some(0);
    assert Remaining(Appointments, rows, snap, results) == rows[1..];
  }

  // ----- Corrected: remove the replayed row by its id -----

  /** The rows tagged `tag`, in store order. */
  function TaggedRows(rows: seq<Row>, tag: string): (r: seq<Row>)
    ensures forall x :: x in r ==> x in rows && x.tag == tag
    decreases |rows|
  {
    if rows == [] then []
    else (if rows[0].tag == tag then [rows[0]] else []) + TaggedRows(rows[1..], tag)
  }

  /** The rows after replaying the snapshot rows in order, deleting each delivered one by its id. */
  function RemainingById(kind: ReplayKind, rows: seq<Row>, snap: seq<Row>, results: seq<FetchResult>): seq<Row>
    requires |snap| == |results|
    decreases |snap|
  {
    if |snap| == 0 then rows
    else
      var n := |snap| - 1;
      var prior := RemainingById(kind, rows, snap[..n], results[..n]);
      if Delivered(kind, results[n]) then WithoutId(prior, snap[n].id) else prior
  }

  lemma {:induction false} TaggedRowsAscending(rows: seq<Row>, tag: string)
    requires IdsAscending(rows)
    ensures IdsAscending(TaggedRows(rows, tag))
    decreases |rows|
  {
    if rows != [] {
      TaggedRowsAscending(rows[1..], tag);
      var rest := TaggedRows(rows[1..], tag);
      if rows[0].tag == tag {
        forall x | x in rest ensures rows[0].id < x.id {
          var k :| 0 <= k < |rows[1..]| && rows[1..][k] == x;
          assert rows[k + 1] == x;
        }
        AscendingCons(rows[0], rest);
      }
    }
  }

  lemma AscendingCons(x: Row, rest: seq<Row>)
    requires IdsAscending(rest) && forall y :: y in rest ==> x.id < y.id
    ensures IdsAscending([x] + rest)
  {
    forall i, j | 0 <= i < j < |[x] + rest| ensures ([x] + rest)[i].id < ([x] + rest)[j].id {
      if i == 0 {
        assert ([x] + rest)[j] == rest[j - 1];
        assert rest[j - 1] in rest;
      } else {
        assert ([x] + rest)[i] == rest[i - 1] && ([x] + rest)[j] == rest[j - 1];
      }
    }
  }

  /** Filtering by tag and deleting an id commute. */
  lemma {:induction false} TaggedWithoutId(rows: seq<Row>, tag: string, id: nat)
    ensures TaggedRows(WithoutId(rows, id), tag) == WithoutId(TaggedRows(rows, tag), id)
    decreases |rows|
  {
    if rows != [] {
      TaggedWithoutId(rows[1..], tag, id);
      var rest := WithoutId(rows[1..], id);
      var tagged := TaggedRows(rows, tag);
      if rows[0].tag == tag {
        assert tagged == [rows[0]] + TaggedRows(rows[1..], tag);
        assert tagged[0] == rows[0] && tagged[1..] == TaggedRows(rows[1..], tag);
      } else {
        assert tagged == TaggedRows(rows[1..], tag);
      }
      if rows[0].id != id {
        assert WithoutId(rows, id) == [rows[0]] + rest;
        assert ([rows[0]] + rest)[0] == rows[0] && ([rows[0]] + rest)[1..] == rest;
      }
    }
  }

  lemma {:induction false} WithoutIdAppend(a: seq<Row>, b: seq<Row>, id: nat)
    ensures WithoutId(a + b, id) == WithoutId(a, id) + WithoutId(b, id)
    decreases |a|
  {
    if a == [] {
      assert a + b == b;
    } else {
      WithoutIdAppend(a[1..], b, id);
      assert (a + b)[0] == a[0] && (a + b)[1..] == a[1..] + b;
    }
  }

  /** Deleting the id of `x` from `a + [x] + b` removes just `x` when no other row has that id. */
  lemma WithoutIdOf(a: seq<Row>, x: Row, b: seq<Row>)
    requires forall y :: y in a ==> y.id != x.id
    requires forall y :: y in b ==> y.id != x.id
    ensures WithoutId(a + [x] + b, x.id) == a + b
  {
    calc {
      WithoutId(a + [x] + b, x.id);
      { WithoutIdAppend(a + [x], b, x.id); }
      WithoutId(a + [x], x.id) + WithoutId(b, x.id);
      { WithoutIdAppend(a, [x], x.id); }
      WithoutId(a, x.id) + WithoutId([x], x.id) + WithoutId(b, x.id);
      { WithoutAbsentId(a, x.id); WithoutAbsentId(b, x.id); assert [x][1..] == []; }
      a + [] + b;
      a + b;
    }
  }

  /** In an id-ascending snapshot, no row other than row `m` has its id. */
  lemma OtherIdsDiffer(kind: ReplayKind, snap: seq<Row>, results: seq<FetchResult>, m: nat)
    requires IdsAscending(snap) && |snap| == |results| && m < |snap|
    ensures forall y :: y in Undelivered(kind, snap[..m], results[..m]) ==> y.id != snap[m].id
    ensures forall y :: y in snap[m + 1..] ==> y.id != snap[m].id
  {
    UndeliveredFromSnapshot(kind, snap[..m], results[..m]);
    forall y | y in snap[..m] ensures y.id != snap[m].id {
      var k :| 0 <= k < m && snap[..m][k] == y;
      assert snap[k] == y;
    }
    forall y | y in snap[m + 1..] ensures y.id != snap[m].id {
      var k :| 0 <= k < |snap[m + 1..]| && snap[m + 1..][k] == y;
      assert snap[m + 1 + k] == y;
    }
  }

  /** After the first `n` replays by id, the tag's rows are the undelivered ones, then the rest. */
  ghost predicate TaggedAfter(kind: ReplayKind, rows: seq<Row>, snap: seq<Row>, results: seq<FetchResult>, n: nat)
    requires |snap| == |results| && n <= |snap|
  {
    TaggedRows(RemainingById(kind, rows, snap[..n], results[..n]), TagOf(kind)) ==
      Undelivered(kind, snap[..n], results[..n]) + snap[n..]
  }

  lemma {:induction false} ByIdPrefix(kind: ReplayKind, rows: seq<Row>, snap: seq<Row>, results: seq<FetchResult>, n: nat)
    requires TaggedRows(rows, TagOf(kind)) == snap && IdsAscending(snap)
    requires |snap| == |results| && n <= |snap|
    ensures TaggedAfter(kind, rows, snap, results, n)
  {
    if n == 0 {
      assert snap[..0] == [] && snap[0..] == snap;
    } else {
      ByIdPrefix(kind, rows, snap, results, n - 1);
      ByIdStep(kind, rows, snap, results, n - 1);
    }
  }

  lemma ByIdStep(kind: ReplayKind, rows: seq<Row>, snap: seq<Row>, results: seq<FetchResult>, m: nat)
    requires IdsAscending(snap) && |snap| == |results| && m < |snap|
    requires TaggedAfter(kind, rows, snap, results, m)
    ensures TaggedAfter(kind, rows, snap, results, m + 1)
  {
    var tag := TagOf(kind);
    var n := m + 1;
    var prior := RemainingById(kind, rows, snap[..m], results[..m]);
    var kept := Undelivered(kind, snap[..m], results[..m]);
    assert snap[..n][..m] == snap[..m] && results[..n][..m] == results[..m];
    assert snap[..m] + [snap[m]] == snap[..n] && results[..m] + [results[m]] == results[..n];
    assert snap[m..] == [snap[m]] + snap[n..];
    if Delivered(kind, results[m]) {
      calc {
        TaggedRows(RemainingById(kind, rows, snap[..n], results[..n]), tag);
        TaggedRows(WithoutId(prior, snap[m].id), tag);
        { TaggedWithoutId(prior, tag, snap[m].id); }
        WithoutId(kept + snap[m..], snap[m].id);
        { assert kept + snap[m..] == kept + [snap[m]] + snap[n..]; }
        WithoutId(kept + [snap[m]] + snap[n..], snap[m].id);
        { OtherIdsDiffer(kind, snap, results, m); WithoutIdOf(kept, snap[m], snap[n..]); }
        kept + snap[n..];
        { UndeliveredSnoc(kind, snap[..m], results[..m], snap[m], results[m]); }
        Undelivered(kind, snap[..n], results[..n]) + snap[n..];
      }
    } else {
      calc {
        TaggedRows(RemainingById(kind, rows, snap[..n], results[..n]), tag);
        TaggedRows(prior, tag);
        kept + [snap[m]] + snap[n..];
        { UndeliveredSnoc(kind, snap[..m], results[..m], snap[m], results[m]); }
        Undelivered(kind, snap[..n], results[..n]) + snap[n..];
      }
    }
  }

  /**
   * With removal by id, a drain over a valid queue leaves queued, among the rows of its
   * tag, exactly those whose replay was not delivered, in store order; no assumption on
   * timestamps is needed.
   */
  lemma ByIdKeepsExactlyUndelivered(kind: ReplayKind, rows: seq<Row>, results: seq<FetchResult>)
    requires IdsAscending(rows)
    requires |results| == |TaggedRows(rows, TagOf(kind))|
    ensures var snap := TaggedRows(rows, TagOf(kind));
      TaggedRows(RemainingById(kind, rows, snap, results), TagOf(kind)) == Undelivered(kind, snap, results)
  {
    var snap := TaggedRows(rows, TagOf(kind));
    TaggedRowsAscending(rows, TagOf(kind));
    ByIdPrefix(kind, rows, snap, results, |snap|);
    assert snap[..|snap|] == snap && results[..|results|] == results && snap[|snap|..] == [];
  }
}

=== FILE: routing.dfy ===
/**
 * The fetch listener's routing decision (enhanced-sw.js, the fetch handler and the
 * three utility predicates isAllowedExternalOrigin, isImageRequest, isStaticResource).
 */
module Routing {
  import opened Http
  import opened Text

  const AllowedOrigins: seq<string> :=
    ["https://api.nabha-health.gov.in", "https://fonts.googleapis.com", "https://fonts.gstatic.com"]

  const ImageExtensions: seq<string> := [".jpg", ".jpeg", ".png", ".gif", ".webp", ".svg", ".ico"]

  const StaticExtensions: seq<string> := [".css", ".js", ".html", ".json"]

  predicate IsAllowedExternalOrigin(origin: string)
  {
    origin in AllowedOrigins
  }

  /**
   * `/\.(e1|e2|...)$/i.test(url)`: the URL ends with one of the (lower-case, ASCII)
   * extensions, compared without regard to ASCII case.
   */
  predicate HasExtension(url: string, extensions: seq<string>)
  {
    exists e :: e in extensions && EndsWith(Lower(url), e)
  }

  predicate IsImageRequest(req: Request)
  {
    req.destination == "image" || HasExtension(req.url, ImageExtensions)
  }

  predicate IsStaticResource(req: Request)
  {
    HasExtension(req.url, StaticExtensions) || Contains(req.url, "/manifest.json")
  }

  /** Which path the fetch listener takes for a request. */
  datatype Route =
    | Mutation    // handleNonGetRequest
    | Ignored     // a cross-origin request that is not allow-listed: the listener returns
    | Api         // handleAPIRequest, network first
    | Image       // handleImageRequest, cache first
    | Static      // handleStaticResource, cache first with background refresh
    | Dynamic     // handleDynamicRequest, network first

  /** A GET request the listener answers itself: same origin, or an allow-listed one. */
  predicate Intercepted(req: Request, selfOrigin: string)
  {
    req.verb == "GET" && (req.origin == selfOrigin || IsAllowedExternalOrigin(req.origin))
  }

  function Classify(req: Request, selfOrigin: string): (r: Route)
    ensures r == Mutation <==> req.verb != "GET"
    ensures r == Ignored <==>
      req.verb == "GET" && req.origin != selfOrigin && !IsAllowedExternalOrigin(req.origin)
    ensures r == Api <==> Intercepted(req, selfOrigin) && StartsWith(req.pathname, "/api/")
    ensures r == Image <==>
      Intercepted(req, selfOrigin) && !StartsWith(req.pathname, "/api/") && IsImageRequest(req)
    ensures r == Static <==>
      Intercepted(req, selfOrigin) && !StartsWith(req.pathname, "/api/") && !IsImageRequest(req)
      && IsStaticResource(req)
    ensures r == Dynamic <==>
      Intercepted(req, selfOrigin) && !StartsWith(req.pathname, "/api/") && !IsImageRequest(req)
      && !IsStaticResource(req)
  {
    if req.verb != "GET" then Mutation
    else if req.origin != selfOrigin && !IsAllowedExternalOrigin(req.origin) then Ignored
    else if StartsWith(req.pathname, "/api/") then Api
    else if IsImageRequest(req) then Image
    else if IsStaticResource(req) then Static
    else Dynamic
  }

  /** A request under `/api/` goes to the API strategy even when its URL looks like an image or a static file. */
  lemma ApiPrefixWins(req: Request, selfOrigin: string)
    requires Intercepted(req, selfOrigin) && StartsWith(req.pathname, "/api/")
    requires IsImageRequest(req) || IsStaticResource(req)
    ensures Classify(req, selfOrigin) == Api
  {
  }

  /** An image request whose URL also looks static (an image-destination fetch of `/sprites.json`) is served as an image. */
  lemma ImageBeforeStatic(req: Request, selfOrigin: string)
    requires Intercepted(req, selfOrigin) && !StartsWith(req.pathname, "/api/")
    requires IsImageRequest(req) && IsStaticResource(req)
    ensures Classify(req, selfOrigin) == Image
  {
  }

  /** The extension test ignores ASCII case: `PHOTO.JPG` is an image like `photo.jpg`. */
  lemma {:induction false} ExtensionIgnoresCase(url: string, extensions: seq<string>)
    ensures HasExtension(url, extensions) <==> HasExtension(Lower(url), extensions)
  {
    LowerIdempotent(url);
  }

  lemma {:induction false} LowerIdempotent(s: string)
    ensures Lower(Lower(s)) == Lower(s)
  {
    assert forall i :: 0 <= i < |s| ==> Lower(Lower(s))[i] == Lower(s)[i];
  }
}

=== FILE: shell_fallback.dfy ===
/**
 * The dynamic strategy's offline fallback for navigations. The install listener puts the
 * application shell in the static partition, and the router sends the shell's URL (it
 * ends in `.html`) to the static strategy, so the shell's own URL is never stored in the
 * dynamic partition. handleDynamicRequest nevertheless looks the shell up there; reading
 * it from the static partition serves the installed shell.
 *
 * The shell's URL with a fragment, such as `#appointments`, no longer ends in `.html` and
 * is routed to the dynamic strategy, which stores it under that URL. Partitions here are
 * keyed by the whole URL, so that entry is not the shell's; the browser's `cache.match`
 * ignores the fragment and would find it. The statements below are about the exact shell
 * URL, so they hold unless a navigation to the shell with a fragment was cached online.
 */
module ShellFallback {
  import opened Http
  import opened Text
  import opened Platform
  import opened Routing
  import opened CacheStore
  import opened Strategies
  import opened FetchEvent

  /** The shell's URL ends in `.html`, whatever the origin. */
  lemma ShellHasStaticExtension(origin: string)
    ensures HasExtension(Resolve(origin, AppShellPath), StaticExtensions)
  {
    var u := Resolve(origin, AppShellPath);
    var n := |u|;
    forall i | 0 <= i < 5 ensures Lower(u)[n - 5 + i] == ".html"[i] {
      assert u[n - 5 + i] == AppShellPath[|AppShellPath| - 5 + i];
    }
    assert Lower(u)[n - 5..] == ".html";
    assert ".html" in StaticExtensions;
  }

  /** A request for the shell's own URL is never routed to the dynamic strategy. */
  lemma ShellNeverRoutedDynamic(req: Request, selfOrigin: string, origin: string)
    requires req.url == Resolve(origin, AppShellPath)
    ensures Classify(req, selfOrigin) != Dynamic
  {
    ShellHasStaticExtension(origin);
  }

  /**
   * As written: in every cache state the fetch listener maintains, the dynamic partition
   * has no entry under the shell's own URL, so an offline navigation that misses the dynamic partition
   * always gets the offline page, whatever the static partition holds.
   */
  lemma DynamicShellLookupMisses(caches: map<string, Partition>, origin: string, req: Request)
    requires DynamicKeysNotStatic(caches)
    requires req.mode == "navigate"
    ensures Resolve(origin, AppShellPath) !in PartitionOf(caches, DynamicCache)
    ensures NavigationFallback(req, PartitionOf(caches, DynamicCache), Resolve(origin, AppShellPath))
      == Respond(OfflineResponse)
  {
    ShellHasStaticExtension(origin);
  }

  /** The last characters of a URL ending in `#appointments` hold no `.`, so it has no extension. */
  lemma NoExtensionAfterFragment(u: string)
    requires EndsWith(u, "#appointments")
    ensures !HasExtension(u, ImageExtensions) && !HasExtension(u, StaticExtensions)
  {
    var n := |u|;
    forall e | e in ImageExtensions + StaticExtensions ensures !EndsWith(Lower(u), e) {
      assert e[0] == '.' && |e| <= 5;
      assert u[n - |e|] == "#appointments"[13 - |e|];
    }
  }

  /**
   * The shell's URL with a fragment is routed to the dynamic strategy, which stores the
   * response under that URL, a key different from the shell's own.
   */
  lemma ShellWithFragmentRoutedDynamic(req: Request, selfOrigin: string, origin: string)
    requires req.url == Resolve(origin, AppShellPath + "#appointments")
    requires req.verb == "GET" && req.origin == selfOrigin && req.pathname == AppShellPath
    requires req.destination != "image" && !Contains(req.url, "/manifest.json")
    ensures Classify(req, selfOrigin) == Dynamic
    ensures req.url != Resolve(origin, AppShellPath)
  {
    assert req.url[|req.url| - 13..] == "#appointments";
    NoExtensionAfterFragment(req.url);
    assert req.pathname[..5][1] != "/api/"[1];
  }

  /**
   * Corrected: the dynamic strategy reading the shell from the static partition, where
   * the install listener put it. An offline navigation that misses the dynamic partition
   * gets the installed shell when there is one.
   */
  method HandleDynamicRequestCorrected(caches: CacheStorage, net: Network, req: Request, origin: string)
    returns (out: Outcome)
    modifies caches, net
    ensures OneFetch(old(net.log), net.log, SentFor(req))
    ensures var before := PartitionOf(old(caches.partitions), DynamicCache);
      var shells := PartitionOf(old(caches.partitions), StaticCache);
      caches.partitions == old(caches.partitions)[DynamicCache := StoreIfOk(before, req.url, LastResult(net.log))]
      && (LastResult(net.log).Fetched? ==> out == Respond(LastResult(net.log).response))
      && (LastResult(net.log).NetworkError? && req.url !in before && req.mode == "navigate"
          && Resolve(origin, AppShellPath) in shells ==>
            out == Respond(shells[Resolve(origin, AppShellPath)]))
  {
    out := NetworkFirstWithShell(caches, net, req, origin, StaticCache);
  }
}

=== FILE: strategies.dfy ===
/**
 * The four caching strategies of the fetch listener, the detached background refresh of
 * a cached static resource, and the periodic refresh of the API partition.
 * Each handler is one sequential step: `caches.open`, at most one `fetch`, at most one
 * `cache.put`.
 */
module Strategies {
  import opened Http
  import opened Text
  import opened Platform
  import opened CacheStore

  /** The application shell, served to navigations that cannot reach the network. */
  const AppShellPath: string := "/enhanced-nabha-health-pwa.html"

  /** A path such as `/api/v1/doctors` resolved against the worker's own origin. */
  function Resolve(origin: string, path: string): string
  {
    origin + path
  }

  /** createOfflineAPIResponse: status 503 with the `offline: true` JSON body. */
  function OfflineApiResponse(now: nat): Response
  {
    Response(503, OfflineApiError(now), false)
  }

  /** createPlaceholderImage: status 200 with the placeholder SVG. */
  const PlaceholderImage: Response := Response(200, PlaceholderSvg, false)

  /** createOfflineResponse: status 200 with the offline HTML page. */
  const OfflineResponse: Response := Response(200, OfflinePage, false)

  /** The partition after a fetch for `key`: the response is stored only when it is ok. */
  function StoreIfOk(p: Partition, key: string, f: FetchResult): Partition
  {
    if Succeeded(f) then p[key := f.response] else p
  }

  /**
   * One run of handleAPIRequest took the partitions from `p0` to `p1` and the network log
   * from `log0` to `log1`, and answered `out`: one fetch of the request; an ok response is
   * stored; the response is returned, or on a transport failure the cached entry marked
   * as served from cache, or without one the 503 offline JSON.
   */
  ghost predicate ApiStrategy(p0: map<string, Partition>, p1: map<string, Partition>,
                              log0: seq<Exchange>, log1: seq<Exchange>, req: Request, now: nat, out: Outcome)
  {
    OneFetch(log0, log1, SentFor(req))
    && var before := PartitionOf(p0, ApiCache);
    p1 == p0[ApiCache := StoreIfOk(before, req.url, LastResult(log1))]
    && match LastResult(log1)
       case Fetched(r) => out == Respond(r)
       case NetworkError =>
         out == Respond(if req.url in before then before[req.url].(servedFromCache := true)
                        else OfflineApiResponse(now))
  }

  /**
   * handleAPIRequest, network first: an ok response is stored and returned, any other
   * response is returned without touching the cache; on a transport failure the cached
   * entry is returned marked as served from cache, and without one the 503 offline JSON.
   */
  method HandleApiRequest(caches: CacheStorage, net: Network, req: Request, now: nat) returns (out: Outcome)
    modifies caches, net
    ensures ApiStrategy(old(caches.partitions), caches.partitions, old(net.log), net.log, req, now, out)
  {
    caches.Open(ApiCache);
    var result := net.Fetch(SentFor(req));
    match result {
      case Fetched(r) =>
        if Ok(r) {
          caches.Put(ApiCache, req.url, r);
        }
        out := Respond(r);
      case NetworkError =>
        var cached := caches.Match(ApiCache, req.url);
        if cached.Some? {
          out := Respond(cached.value.(servedFromCache := true));
        } else {
          out := Respond(OfflineApiResponse(now));
        }
    }
  }

  /**
   * One run of handleImageRequest: a cached entry is returned with no fetch; otherwise one
   * fetch, an ok response stored, and the response or on failure the placeholder returned.
   */
  ghost predicate ImageStrategy(p0: map<string, Partition>, p1: map<string, Partition>,
                                log0: seq<Exchange>, log1: seq<Exchange>, req: Request, out: Outcome)
  {
    var before := PartitionOf(p0, ImageCache);
    if req.url in before then
      out == Respond(before[req.url]) && log1 == log0 && p1 == p0[ImageCache := before]
    else
      OneFetch(log0, log1, SentFor(req))
      && p1 == p0[ImageCache := StoreIfOk(before, req.url, LastResult(log1))]
      && match LastResult(log1)
         case Fetched(r) => out == Respond(r)
         case NetworkError => out == Respond(PlaceholderImage)
  }

  /**
   * handleImageRequest, cache first: a hit is returned without any network call; on a
   * miss an ok response is stored, and a transport failure yields the placeholder image.
   */
  method HandleImageRequest(caches: CacheStorage, net: Network, req: Request) returns (out: Outcome)
    modifies caches, net
    ensures ImageStrategy(old(caches.partitions), caches.partitions, old(net.log), net.log, req, out)
  {
    caches.Open(ImageCache);
    var cached := caches.Match(ImageCache, req.url);
    if cached.Some? {
      return Respond(cached.value);
    }
    var result := net.Fetch(SentFor(req));
    match result {
      case Fetched(r) =>
        if Ok(r) {
          caches.Put(ImageCache, req.url, r);
        }
        out := Respond(r);
      case NetworkError =>
        out := Respond(PlaceholderImage);
    }
  }

  /**
   * One run of handleStaticResource: a cached entry is returned with no fetch and a
   * refresh requested; otherwise one fetch, an ok response stored, and the response or on
   * failure the navigation fallback with the shell from the static partition.
   */
  ghost predicate StaticStrategy(p0: map<string, Partition>, p1: map<string, Partition>,
                                 log0: seq<Exchange>, log1: seq<Exchange>, req: Request, origin: string,
                                 out: Outcome, revalidate: bool)
  {
    var before := PartitionOf(p0, StaticCache);
    revalidate == (req.url in before)
    && if req.url in before then
      out == Respond(before[req.url]) && log1 == log0 && p1 == p0[StaticCache := before]
    else
      OneFetch(log0, log1, SentFor(req))
      && p1 == p0[StaticCache := StoreIfOk(before, req.url, LastResult(log1))]
      && match LastResult(log1)
         case Fetched(r) => out == Respond(r)
         case NetworkError => out == NavigationFallback(req, before, Resolve(origin, AppShellPath))
  }

  /**
   * handleStaticResource: a hit is returned at once and a background refresh is left
   * pending (`revalidate`); on a miss the network is tried and an ok response stored;
   * when that fails a navigation gets the cached shell or the offline page, anything
   * else a rejection.
   */
  method HandleStaticResource(caches: CacheStorage, net: Network, req: Request, origin: string)
    returns (out: Outcome, revalidate: bool)
    modifies caches, net
    ensures StaticStrategy(old(caches.partitions), caches.partitions, old(net.log), net.log, req, origin, out, revalidate)
  {
    caches.Open(StaticCache);
    var cached := caches.Match(StaticCache, req.url);
    if cached.Some? {
      return Respond(cached.value), true;
    }
    revalidate := false;
    var result := net.Fetch(SentFor(req));
    match result {
      case Fetched(r) =>
        if Ok(r) {
          caches.Put(StaticCache, req.url, r);
        }
        out := Respond(r);
      case NetworkError =>
        if req.mode == "navigate" {
          var shell := caches.Match(StaticCache, Resolve(origin, AppShellPath));
          out := Respond(GetOr(shell, OfflineResponse));
        } else {
          out := Rejected;
        }
    }
  }

  /** A navigation that cannot be served gets the shell from `p` or the offline page; anything else is rejected. */
  function NavigationFallback(req: Request, p: Partition, shellKey: string): Outcome
  {
    if req.mode == "navigate" then Respond(if shellKey in p then p[shellKey] else OfflineResponse)
    else Rejected
  }

  /**
   * The detached refresh of a cached static resource. Only an ok response changes
   * anything, and then only that one key; a failure is swallowed and changes nothing.
   */
  method RevalidateStatic(caches: CacheStorage, net: Network, req: Request)
    modifies caches, net
    ensures OneFetch(old(net.log), net.log, SentFor(req))
    ensures caches.partitions ==
      if Succeeded(LastResult(net.log))
      then old(caches.partitions)[StaticCache := PartitionOf(old(caches.partitions), StaticCache)[req.url := LastResult(net.log).response]]
      else old(caches.partitions)
  {
    var result := net.Fetch(SentFor(req));
    if Succeeded(result) {
      caches.Put(StaticCache, req.url, result.response);
    }
  }

  /**
   * One run of handleDynamicRequest: one fetch, an ok response stored, and the response,
   * or on failure the cached entry, or the navigation fallback with the shell looked up in
   * the dynamic partition.
   */
  ghost predicate DynamicStrategy(p0: map<string, Partition>, p1: map<string, Partition>,
                                  log0: seq<Exchange>, log1: seq<Exchange>, req: Request, origin: string, out: Outcome)
  {
    OneFetch(log0, log1, SentFor(req))
    && var before := PartitionOf(p0, DynamicCache);
    p1 == p0[DynamicCache := StoreIfOk(before, req.url, LastResult(log1))]
    && match LastResult(log1)
       case Fetched(r) => out == Respond(r)
       case NetworkError =>
         out == if req.url in before then Respond(before[req.url])
                else NavigationFallback(req, before, Resolve(origin, AppShellPath))
  }

  /**
   * handleDynamicRequest, network first: an ok response is stored; on a transport
   * failure the cached entry, else for a navigation the shell looked up in the dynamic
   * partition or the offline page, else a rejection.
   */
  method HandleDynamicRequest(caches: CacheStorage, net: Network, req: Request, origin: string)
    returns (out: Outcome)
    modifies caches, net
    ensures DynamicStrategy(old(caches.partitions), caches.partitions, old(net.log), net.log, req, origin, out)
  {
    out := NetworkFirstWithShell(caches, net, req, origin, DynamicCache);
  }

  /**
   * The dynamic strategy with the partition its navigation fallback reads the shell from
   * as a parameter; handleDynamicRequest reads it from the dynamic partition itself.
   */
  method NetworkFirstWithShell(caches: CacheStorage, net: Network, req: Request, origin: string, shellCache: string)
    returns (out: Outcome)
    modifies caches, net
    ensures OneFetch(old(net.log), net.log, SentFor(req))
    ensures var before := PartitionOf(old(caches.partitions), DynamicCache);
      caches.partitions == old(caches.partitions)[DynamicCache := StoreIfOk(before, req.url, LastResult(net.log))]
      && match LastResult(net.log)
         case Fetched(r) => out == Respond(r)
         case NetworkError =>
           out == if req.url in before then Respond(before[req.url])
                  else NavigationFallback(req, PartitionOf(old(caches.partitions)[DynamicCache := before], shellCache),
                                          Resolve(origin, AppShellPath))
  {
    caches.Open(DynamicCache);
    var result := net.Fetch(SentFor(req));
    match result {
      case Fetched(r) =>
        if Ok(r) {
          caches.Put(DynamicCache, req.url, r);
        }
        out := Respond(r);
      case NetworkError =>
        var cached := caches.Match(DynamicCache, req.url);
        if cached.Some? {
          out := Respond(cached.value);
        } else if req.mode == "navigate" {
          var shell := caches.Match(shellCache, Resolve(origin, AppShellPath));
          out := Respond(GetOr(shell, OfflineResponse));
        } else {
          out := Rejected;
        }
    }
  }

  /** The API endpoints refreshed by the periodic sync. */
  const ApiEndpoints: seq<string> :=
    ["/api/v1/doctors", "/api/v1/pharmacies", "/api/v1/emergency-contacts", "/api/v1/villages",
     "/api/v1/specializations"]

  /** The cache keys of the refreshed endpoints: each endpoint resolved against the origin. */
  function EndpointKeys(origin: string): seq<string>
  {
    seq(|ApiEndpoints|, i requires 0 <= i < |ApiEndpoints| => Resolve(origin, ApiEndpoints[i]))
  }

  function Get(url: string): Sent
  {
    Sent("GET", url, map[], None)
  }

  /** The partition after fetching `keys` in order, storing each ok response under its key. */
  function Refreshed(p: Partition, keys: seq<string>, results: seq<FetchResult>): Partition
    requires |keys| == |results|
    decreases |keys|
  {
    if |keys| == 0 then p
    else StoreIfOk(Refreshed(p, keys[..|keys| - 1], results[..|keys| - 1]), keys[|keys| - 1], results[|keys| - 1])
  }

  /**
   * In a refresh over distinct keys, each key ends up holding its ok response, or its
   * old entry (or none) when its fetch failed; keys not fetched are untouched.
   */
  lemma {:induction false} RefreshedAt(p: Partition, keys: seq<string>, results: seq<FetchResult>, k: string)
    requires |keys| == |results|
    requires forall i, j :: 0 <= i < j < |keys| ==> keys[i] != keys[j]
    ensures k !in keys ==> (k in Refreshed(p, keys, results) <==> k in p)
    ensures k !in keys && k in p ==> Refreshed(p, keys, results)[k] == p[k]
    ensures forall i :: 0 <= i < |keys| && keys[i] == k && Succeeded(results[i]) ==>
      k in Refreshed(p, keys, results) && Refreshed(p, keys, results)[k] == results[i].response
    ensures forall i :: 0 <= i < |keys| && keys[i] == k && !Succeeded(results[i]) ==>
      (k in Refreshed(p, keys, results) <==> k in p)
      && (k in p ==> Refreshed(p, keys, results)[k] == p[k])
  {
    if |keys| > 0 {
      var n := |keys| - 1;
      RefreshedAt(p, keys[..n], results[..n], k);
      assert forall i :: 0 <= i < n ==> keys[..n][i] == keys[i] && results[..n][i] == results[i];
      if k != keys[n] {
        assert k in keys ==> k in keys[..n];
      }
    }
  }

  lemma {:induction false} EndpointKeysDistinct(origin: string)
    ensures forall i, j :: 0 <= i < j < |EndpointKeys(origin)| ==> EndpointKeys(origin)[i] != EndpointKeys(origin)[j]
  {
    var keys := EndpointKeys(origin);
    forall i, j | 0 <= i < j < |keys| ensures keys[i] != keys[j] {
      assert keys[i][|origin|..] == ApiEndpoints[i];
      assert keys[j][|origin|..] == ApiEndpoints[j];
    }
  }

  /** `fetched` is one GET per key, in order. */
  ghost predicate GetsFor(keys: seq<string>, fetched: seq<Exchange>)
  {
    |fetched| == |keys| && forall k :: 0 <= k < |keys| ==> fetched[k].sent == Get(keys[k])
  }

  lemma RefreshStep(p: Partition, keys: seq<string>, fetched: seq<Exchange>, key: string, result: FetchResult)
    requires GetsFor(keys, fetched)
    ensures GetsFor(keys + [key], fetched + [Exchange(Get(key), result)])
    ensures Refreshed(p, keys + [key], Results(fetched + [Exchange(Get(key), result)])) ==
      StoreIfOk(Refreshed(p, keys, Results(fetched)), key, result)
  {
    var rs := Results(fetched + [Exchange(Get(key), result)]);
    assert (keys + [key])[..|keys|] == keys;
    assert rs[..|keys|] == Results(fetched);
  }

  /**
   * One run of updateAPICache: one GET per endpoint, in order, appended to the log, and
   * the API partition becomes `Refreshed` by their results; no other partition changes.
   */
  ghost predicate ApiRefreshed(p0: map<string, Partition>, p1: map<string, Partition>,
                               log0: seq<Exchange>, log1: seq<Exchange>, origin: string)
  {
    |log1| == |log0| + |ApiEndpoints| && log1[..|log0|] == log0
    && (forall i :: 0 <= i < |ApiEndpoints| ==> log1[|log0| + i].sent == Get(EndpointKeys(origin)[i]))
    && p1 == p0[ApiCache := Refreshed(PartitionOf(p0, ApiCache), EndpointKeys(origin), Results(log1[|log0|..]))]
  }

  /**
   * updateAPICache: fetch every endpoint in order and store each ok response under the
   * endpoint's URL; a failed or non-ok fetch is skipped and the loop goes on.
   */
  method UpdateApiCache(caches: CacheStorage, net: Network, origin: string)
    modifies caches, net
    ensures ApiRefreshed(old(caches.partitions), caches.partitions, old(net.log), net.log, origin)
  {
    caches.Open(ApiCache);
    ghost var log0 := net.log;
    var keys := EndpointKeys(origin);
    ghost var fetched := RefreshAll(caches, net, keys);
    RefreshLog(log0, fetched, keys);
  }

  /** The loop of updateAPICache: refresh each key in order. */
  method RefreshAll(caches: CacheStorage, net: Network, keys: seq<string>) returns (ghost fetched: seq<Exchange>)
    requires ApiCache in caches.partitions
    modifies caches, net
    ensures net.log == old(net.log) + fetched
    ensures GetsFor(keys, fetched)
    ensures caches.partitions ==
      old(caches.partitions)[ApiCache := Refreshed(old(caches.partitions)[ApiCache], keys, Results(fetched))]
  {
    ghost var log0 := net.log;
    ghost var p0 := caches.partitions[ApiCache];
    fetched := [];
    for i := 0 to |keys|
      invariant net.log == log0 + fetched
      invariant GetsFor(keys[..i], fetched)
      invariant caches.partitions == old(caches.partitions)[ApiCache := Refreshed(p0, keys[..i], Results(fetched))]
    {
      var result := RefreshEndpoint(caches, net, keys[i]);
      RefreshStep(p0, keys[..i], fetched, keys[i], result);
      assert keys[..i] + [keys[i]] == keys[..i + 1];
      fetched := fetched + [Exchange(Get(keys[i]), result)];
    }
    assert keys[..|keys|] == keys;
  }

  lemma RefreshLog(log0: seq<Exchange>, fetched: seq<Exchange>, keys: seq<string>)
    requires GetsFor(keys, fetched)
    ensures (log0 + fetched)[|log0|..] == fetched && (log0 + fetched)[..|log0|] == log0
    ensures forall i :: 0 <= i < |keys| ==> (log0 + fetched)[|log0| + i].sent == Get(keys[i])
  {
  }

  /** One step of updateAPICache: fetch `key` and store the response if it is ok. */
  method RefreshEndpoint(caches: CacheStorage, net: Network, key: string) returns (result: FetchResult)
    requires ApiCache in caches.partitions
    modifies caches, net
    ensures net.log == old(net.log) + [Exchange(Get(key), result)]
    ensures caches.partitions ==
      old(caches.partitions)[ApiCache := StoreIfOk(PartitionOf(old(caches.partitions), ApiCache), key, result)]
  {
    result := net.Fetch(Get(key));
    if Succeeded(result) {
      caches.Put(ApiCache, key, result.response);
    }
  }
}

=== FILE: text.dfy ===
/** String helpers used by the request classifier, the optimistic responses and the config utilities. */
module Text {

  predicate StartsWith(s: string, prefix: string)
  {
    |prefix| <= |s| && s[..|prefix|] == prefix
  }

  predicate EndsWith(s: string, suffix: string)
  {
    |suffix| <= |s| && s[|s| - |suffix|..] == suffix
  }

  /** `s.includes(part)`: `part` occurs somewhere in `s`. */
  predicate Contains(s: string, part: string)
    decreases |s|
  {
    StartsWith(s, part) || (|s| > 0 && Contains(s[1..], part))
  }

  /** ASCII lower-casing of one character; every other character is left as it is. */
  function LowerChar(c: char): char
  {
    if 'A' <= c <= 'Z' then (c as int + 32) as char else c
  }

  function Lower(s: string): string
  {
    seq(|s|, i requires 0 <= i < |s| => LowerChar(s[i]))
  }

  function DigitChar(d: nat): char
    requires d < 10
  {
    "0123456789"[d]
  }

  /** The decimal rendering of a natural number, as JavaScript's string concatenation writes it. */
  function Decimal(n: nat): (r: string)
    ensures |r| > 0
    ensures forall i :: 0 <= i < |r| ==> '0' <= r[i] <= '9'
  {
    if n < 10 then [DigitChar(n)] else Decimal(n / 10) + [DigitChar(n % 10)]
  }
}
